=== FILE: README.md ===
# CinemaBot search core in Dafny

CinemaBot is a Telegram bot. It takes a movie title, looks the movie up in the Kinopoisk
database, finds a matching video on VK, and replies with a card and a link. It also keeps a
per-user search history and per-user title counters in SQLite. This project models the core
of that behaviour as pure Dafny functions over immutable values, and proves what the code
promises about them.

- `results.dfy` (module `Results`): `Option` and `Result`, used for Python's raised
  exceptions.
- `text.dfy` (module `Text`): Python's `str.strip` with the `str.isspace` character set,
  `split` on one character, `join`, and integer-to-text conversion.
- `json.dfy` (module `Json`): decoded JSON values and the Python operations the code applies
  to them:
  - truthiness;
  - `== 0`;
  - `d[key]`, raising `KeyError` or `TypeError`;
  - `x[0]`;
  - `key in x`.
- `ranking.dfy` (module `Ranking`): a descending insertion sort and top-k. Together they give
  `ORDER BY ... DESC LIMIT n`.
- `interaction_store.dfy`:
  - module `InteractionStore` covers `DBManager` (`db_manager.py`). The `search_history`
    table is an append-only sequence of entries. The `movie_stats` table is a sequence of
    rows in insertion (rowid) order, and `CountOf` gives its map view `(title, user) ↦ count`.
  - module `StoreLaws` holds the properties that combine several store operations.
- `searcher.dfy`:
  - module `Searcher` covers `MovieSearcher` (`movie_searcher.py`). Each provider is a
    function from the request record it receives to the response it gives: a status plus a
    JSON body, or no answer at all.
  - module `SearcherLaws` holds the properties that combine several searcher functions.
- `search_handler.dfy` (module `SearchHandler`): the pure steps of `movie_search_handler`
  (`cinemabot.py`). `Handle` returns the new store together with the trace of effects the
  handler performs, in order: chat messages, the two provider requests, and the two store
  writes.
- `handler_laws.dfy` (module `HandlerLaws`): how one handled message relates to the store,
  the effect trace and the video lookup.

The code decides the behaviour throughout:

- The video search text is the stripped prefix, two spaces, and the request as typed. The
  searcher already appends one space to the prefix, and the query format adds a second.
- A failed HTTP status is not an exception. Both fetchers return an `{"Error": ...}`
  dictionary instead. `get_info` then fails on the missing `name` key. `get_references`
  finds no `response` key in it and yields no references.
- Missing ratings have no default. A document without `rating.kp` makes `get_info` fail.
- The search is saved and counted before the video lookup. A failing video lookup does not
  undo either write.
- The call to `extractOne` at cinemabot.py:109-112 passes no `score_cutoff`, so any best match is
  accepted. The matcher is a parameter of the model (`Env.extractOne`), and the model fixes no
  tie-break among equally scored titles. The best-link property holds for every matcher that
  answers nothing or one of the candidates it was given (`IsChooser`).

Python's `str()` of a JSON value appears in the canonical title `"{title} ({year})"`. It is
the parameter `Env.show`. For a `show` that renders a string as itself, as `str()` does, a
string title `t` gives exactly `t (year)` (`SearchHandler.CanonicalTitleOfString`).
The clock that fills `CURRENT_TIMESTAMP` is the parameter `Env.now`.

## Model

| member | source | states |
|---|---|---|
| Text.Strip | cinemabot.py:79 | the stripped text is the input minus its leading and trailing whitespace; it is empty exactly when the input is all whitespace, and otherwise starts and ends with a non-space |
| Text.StripIdempotent | movie_searcher.py:18 | stripping twice gives what stripping once gives |
| Text.StripKeepsNonSpace | cinemabot.py:79-80 | a text with one non-space character does not strip to empty |
| Text.Split | movie_searcher.py:74 | `split` on a character gives at least one part, and no part contains the separator |
| Text.JoinSplitIsReplace | movie_searcher.py:74 | joining the parts of a split with another character replaces every separator by that character and moves nothing else |
| Text.SplitJoinRoundTrip | movie_searcher.py:74 | joining the parts with the separator itself gives back the input |
| Text.ContainsAt | movie_searcher.py:87 | the substring test holds exactly when the key occurs at some position of the string |
| Text.NatToString | movie_searcher.py:43 | a status renders as a non-empty string of decimal digits, without a leading zero, whose value is the status |
| Json.Get | movie_searcher.py:71-77 | `d[key]` succeeds exactly on an object holding the key and yields its value; otherwise `KeyError(key)` on an object and `TypeError` on anything else |
| Json.First | movie_searcher.py:60 | `docs[0]` is the first item of a non-empty list (first character of a string) and succeeds only on a truthy list or string |
| Json.Has | movie_searcher.py:87 | `key in x` tests the keys of an object, the items of a list and, for a string, whether the key occurs at some position; it raises on other values |
| Ranking.Insert | db_manager.py:74 | inserting into a descending list keeps it descending, adds exactly the new element, and puts either the new element or the old head first |
| Ranking.SortDesc | db_manager.py:74 | the sort is a permutation of its input and is descending by the key |
| Ranking.SortDescOfDescending | db_manager.py:44 | an already descending list is left as it is, so equal keys keep their order |
| Ranking.TopK | db_manager.py:74-75 | the first `min(k, n)` of the sorted list: descending, drawn from the input, and no element left out, or kept fewer times than it occurs, ranks above the last kept one |
| Ranking.TopKOfDescending | db_manager.py:74-75 | on input already in descending order, `LIMIT k` keeps exactly the first `k` rows |
| InteractionStore.CountOf | db_manager.py:50-55 | the count of a pair is 0 when no row belongs to it |
| InteractionStore.CountOfRow | db_manager.py:22-28 | under `UNIQUE(movie_title, user_id)`, the count of any row is the count stored for its pair |
| InteractionStore.Open | db_manager.py:10-29 | a new database has an empty history and no stat rows, and satisfies the row invariant; an existing database is kept as it is |
| InteractionStore.SaveSearch | db_manager.py:31-36 | appends exactly one entry `(user, query, title, now)`, keeps every earlier entry and all stats, and keeps the row invariant and clock order |
| InteractionStore.UserEntries | db_manager.py:43 | `WHERE user_id = ?`: exactly the entries of that user, none more often than it is stored |
| InteractionStore.UserEntriesFilter | db_manager.py:43 | the user's entries keep every entry of the user exactly as often as it is stored, and no entry of another user |
| InteractionStore.UserRowsMembers | db_manager.py:73 | the user's stat rows are the rows of that user, each exactly as often as it is stored |
| InteractionStore.RecentEntries | db_manager.py:40-45 | at most 10 entries, as many as the user has up to 10, each at most as often as it is stored, all the user's, timestamps non-increasing, and none of the user's entries left out, or kept fewer times than stored (two identical same-second searches), newer than the last one kept |
| InteractionStore.GetSearchHistory | db_manager.py:38-46 | the `(query, movie_title)` pairs of those entries, one for one and in order |
| InteractionStore.IncrementMovieStat | db_manager.py:48-66 | the pair's count rises by exactly one (from 0 to 1 when the row is new), every other pair's count and the history are unchanged, and the row invariant is kept |
| InteractionStore.TopRows | db_manager.py:70-75 | at most 10 rows, as many as the user has up to 10, each at most as often as it is stored, all the user's, counts non-increasing, and no row of the user left out, or kept fewer times than stored, with a higher count than the last one kept |
| InteractionStore.GetMovieStats | db_manager.py:68-76 | the `(movie_title, count)` pairs of those rows, in order |
| StoreLaws.SaveSearchFrame | db_manager.py:31-46 | a saved search changes no other user's history and no stats report |
| StoreLaws.UserEntriesAscending | db_manager.py:18 | under a clock that never runs backwards, one user's entries are in timestamp order |
| StoreLaws.MostRecentFirst | db_manager.py:41-45 | under such a clock the history report is the user's last ten entries, newest first |
| StoreLaws.LatestSearchFirst | db_manager.py:31-46 | a search saved at the latest time heads the user's history report |
| StoreLaws.StatsReportCounts | db_manager.py:68-76 | every count in the stats report is the count stored for that title and is at least 1 |
| StoreLaws.IncrementAll | db_manager.py:48-66 | a run of increments never touches the history and keeps the row invariant |
| StoreLaws.CountIsOccurrences | db_manager.py:48-66 | after a run of increments a pair's count is its count before plus the number of increments of that pair, so counts never decrease |
| StoreLaws.ExampleCounts | db_manager.py:48-66 | Dune, Dune, Arrival from an empty store gives the rows (Dune, 2) then (Arrival, 1) |
| StoreLaws.ExampleReport | db_manager.py:68-76 | those rows report as Dune 2, then Arrival 1 |
| StoreLaws.StatsExample | db_manager.py:48-76 | two increments of Dune and one of Arrival report `[("Dune", 2), ("Arrival", 1)]` |
| Searcher.NewSearcher | movie_searcher.py:17-18 | the prefix is the stripped base followed by exactly one space |
| Searcher.VkRequestFor | movie_searcher.py:26-37 | a blank request fails with the empty-request error and builds nothing; otherwise the search text is the prefix, a space and the request unchanged, and the other parameters are passed through |
| Searcher.Answer | movie_searcher.py:39-43 | no answer is a transport error; a non-200 status gives the `{"Error": ...}` value; a 200 status gives the decoded body, or a decode error |
| Searcher.FetchVkReference | movie_searcher.py:26-43 | a blank request fails before any call; otherwise the video provider's answer to the built request, shaped by `Answer` |
| Searcher.KpRequestFor | movie_searcher.py:49-54 | page 1, limit 1, the query unchanged |
| Searcher.GetKpInfoJson | movie_searcher.py:45-62 | a non-200 status gives the `{"Error": ...}` value; a 200 answer with falsy `docs` is not-found; with any other truthy `docs` it is `docs[0]` (`Json.First`: the first item of a list, the first character of a string, an error for any other value); a body without `docs` raises the `KeyError`; a 200 body that is not JSON is a decode error |
| Searcher.Normalise | movie_searcher.py:74 | every no-break space becomes a space and every other character stays; the length is kept and no no-break space remains |
| Searcher.NormaliseIdempotent | cinemabot.py:96 | cleaning an already cleaned description changes nothing |
| Searcher.InfoFromDoc | movie_searcher.py:70-78 | succeeds exactly on a document with every key read (and a string description), and then copies each value unchanged; any missing key fails, with no default, and a missing `name` fails with `KeyError('name')` |
| Searcher.GetInfo | movie_searcher.py:64-80 | succeeds exactly when the fetch succeeds with a document that carries every key, and then copies `name`, `year`, `movieLength`, the cleaned description, both ratings and the poster URL unchanged; a fetch failure passes through, and a fetched document fails as `InfoFromDoc` does |
| Searcher.GetInfoFailedStatus | movie_searcher.py:61-71 | after a failed status `get_info` fails with `KeyError('name')` on the error dictionary |
| Searcher.ReferencesOf | movie_searcher.py:88 | succeeds exactly when every item has `title` and `player`, and then gives one pair per item, in order |
| Searcher.IterateItems | movie_searcher.py:88 | a list of items is shaped item by item; an empty object or string gives no pairs; every other value raises `TypeError` |
| Searcher.ReferencesFromBody | movie_searcher.py:87-90 | without `response` or without `response.items` there are no pairs; otherwise the pairs of the items |
| Searcher.GetReferences | movie_searcher.py:82-90 | a blank query fails; a failed status gives no pairs; a 200 answer gives the pairs of its body |
| SearcherLaws.SearchText | movie_searcher.py:18-31 | the video search text is the stripped base, two spaces, then the request |
| SearcherLaws.ReferencesAskForFifty | movie_searcher.py:86 | `get_references` depends only on the provider's answer to one request: 50 videos with the default version, filters and sort |
| SearcherLaws.ReferencesFollowItems | movie_searcher.py:87-88 | with well-formed items the pairs have the items' length and order, item by item |
| SearcherLaws.ReferencesOfFailedStatus | movie_searcher.py:86-90 | a failed video search status yields no references, not an exception |
| SearchHandler.RuntimeOf | cinemabot.py:94-95 | no runtime line for a falsy length; otherwise `60*h + m` is the length and `0 <= m < 60`; a truthy non-number raises |
| SearchHandler.RuntimeOfInt | cinemabot.py:95 | for an integer length the split is the integer `length // 60` and `length % 60` |
| SearchHandler.Preview | cinemabot.py:97 | a description of at most 500 characters is shown whole; a longer one shows its first 500 characters followed by `...` |
| SearchHandler.Rating | cinemabot.py:98-101 | a rating is shown exactly when its score is not zero, and then unchanged |
| SearchHandler.CardOf | cinemabot.py:93-101 | the card carries the title and year, the runtime split, the preview of the cleaned description and the two rating lines with zero scores hidden; it fails exactly when the runtime does |
| SearchHandler.CardPreviewOfInfo | cinemabot.py:96-97 | the second clean-up in the handler leaves the description `get_info` produced unchanged |
| SearchHandler.CanonicalTitle | cinemabot.py:104 | the title text, ` (`, the year text and `)`, in that order; never blank |
| SearchHandler.CanonicalTitleOfString | cinemabot.py:104 | when `str()` renders a string as itself, a string title `t` gives exactly `t (year)` |
| SearchHandler.Resolve | cinemabot.py:89-95 | succeeds exactly when `get_info` succeeds with a truthy title and a length the runtime line accepts, and then yields that info and its card; an empty title is not-found; a failure of `get_info` or of the runtime split passes through |
| SearchHandler.FirstWithTitle | cinemabot.py:115 | the position of the first reference with the title, or none when no reference has it |
| SearchHandler.Titles | cinemabot.py:111 | the titles of the references, one for one |
| SearchHandler.BestLink | cinemabot.py:113-116 | no choice gives no link; a choice among the titles always finds a link, and one that no reference bears fails as `next` does; the link is the chosen title with the URL of the first reference bearing it |
| SearchHandler.Photo | cinemabot.py:124 | a photo is sent exactly when the image URL is truthy |
| SearchHandler.Conclude | cinemabot.py:108-136 | a failed video search, or a chosen title with no matching video, reports its error; otherwise the card is sent with the best link and, exactly for a truthy image URL, the poster |
| SearchHandler.Record | cinemabot.py:105-106 | one history entry is appended, the pair's count rises by one, nothing else changes, and the row invariant is kept |
| SearchHandler.Proceed | cinemabot.py:103-116 | after a resolve: the store is `Record`'s, and the trace is the save, the increment, the video request for the same canonical title, then the reply |
| SearchHandler.VideoRequestSent | cinemabot.py:104-108 | the video request for every canonical title passes the blank check |
| SearchHandler.After | cinemabot.py:84-136 | the trace opens with the searching message and the movie request; a failed resolve reports the error and leaves the store unchanged |
| SearchHandler.Handle | cinemabot.py:79-136 | blank input only prompts for a title; other input goes through the resolve-and-record steps |
| HandlerLaws.VideoRequestText | cinemabot.py:33 | the video search for a title is `фильм`, two spaces, the title, asking for 50 videos |
| HandlerLaws.RecordsExactlyWhenResolved | cinemabot.py:89-106 | the store changes exactly when the resolve succeeds, and then by `Record` of the input and the canonical title |
| HandlerLaws.EffectOrder | cinemabot.py:84-116 | after a resolve the trace is: searching message, movie request, save, increment, video request, reply; the same canonical title is saved, counted and searched |
| HandlerLaws.HandleRecords | cinemabot.py:79-106 | for a whole message the store changes exactly when the stripped text is not blank and resolves |
| HandlerLaws.HandleKeepsValid | cinemabot.py:105-106 | handling a message keeps one row per (title, user) and positive counts |
| HandlerLaws.BlankInputOnlyPrompts | cinemabot.py:79-82 | blank input gives only the prompt: no lookup and no store change |
| HandlerLaws.EmptyTitleIsNotFound | cinemabot.py:91-92 | a movie with an empty name is reported not found and nothing is recorded |
| HandlerLaws.EmptyDocsIsNotFound | cinemabot.py:89-92 | a 200 answer with empty or falsy `docs` is reported not found and nothing is recorded |
| HandlerLaws.CardFollowsInfo | cinemabot.py:94-101 | the card of a resolved movie has a runtime line exactly for a truthy length, split as `60*h + m` with `m < 60`, and each rating line exactly for a non-zero score |
| HandlerLaws.NoWritesReplay | cinemabot.py:84-92 | a trace without writes replays to the store it started from |
| HandlerLaws.ProceedFollowsTrace | cinemabot.py:103-116 | the store after a resolve is what replaying that trace's writes gives |
| HandlerLaws.AfterFollowsTrace | cinemabot.py:84-136 | the store after a non-blank message is what replaying its trace's writes gives |
| HandlerLaws.StoreFollowsTrace | cinemabot.py:79-136 | for every message, the store after handling is what replaying the trace's writes gives |
| HandlerLaws.LookupFailureKeepsRecord | cinemabot.py:105-108 | a failed video search still leaves the search saved and counted, and reports its error |
| HandlerLaws.BestLinkFromChoice | cinemabot.py:108-116 | with a matcher that picks from its candidates, a successful video search always yields the card, with a link exactly when something was picked, pointing at the first video with the picked title |

## Left out

- Telegram I/O (aiogram polling, `message.answer`, `answer_photo` and its fallback message), and the `/start`, `/help`, `/history` and `/stats` handlers: they only send or format text. The reply is the `Reply` value in the trace.
- HTTP (aiohttp sessions, URLs, tokens in the query): providers are functions from request records to responses.
- HTML formatting of the card, the message texts, and Python's rendering of numbers in f-strings: `Env.show` stands for `str()` of a JSON value; the card keeps the values, not the text.
- Elapsed-time measurement (`time.time`) and the "search time" line: floating-point clock, no logic.
- Environment and token loading, and the import-time `ValueError` checks: configuration, not behaviour.
- The `main` demo in `movie_searcher.py`: a manual script.
- SQLite transactions, connections, `close` and concurrent read-modify-write in `increment_movie_stat`: the store is one immutable value and calls are sequential.
- InteractionStore.RecentEntries: `CURRENT_TIMESTAMP` has one-second resolution and SQLite leaves the order of same-second entries open; the model fixes one order (the later insertion first) and takes the time from the caller as `now`.
- InteractionStore.TopRows: SQLite does not fix the order of rows with equal counts; the model keeps them in table (rowid) order.
- Ranking.SortDesc: that equal keys keep their input order is proved only for input already in descending order (`SortDescOfDescending`), not in general.
- rapidfuzz scoring: `extractOne` is a parameter. The call passes no `score_cutoff`, and the
  model fixes no tie-break among equally scored titles.
- HandlerLaws.BestLinkFromChoice: assumes the matcher returns nothing or one of the titles it was given (`IsChooser`), which rapidfuzz promises but which is not modelled.
- SearchHandler.Handle: its own contract states the blank case and the hand-over to `After`; what the whole message does to the store and the trace is stated in `HandlerLaws`.
- JSON numbers are reals: the int/float distinction only shows in formatting. NaN is not modelled, and Python's `1 == 1.0 == True` is not applied when titles are compared.
- `message.text` being absent (non-text messages): the handler is modelled for text messages only.

=== FILE: handler_laws.dfy ===
/** How one handled message relates to the store, the trace and the reference lookup. */
module HandlerLaws {
  import opened Results
  import opened Text
  import opened Json
  import opened Searcher
  import opened InteractionStore
  import opened SearchHandler

  /** The store write an effect stands for, if it is one. */
  function Step(s: Store, e: Effect, now: int): Store {
    match e
    case Saved(user, query, title) => SaveSearch(s, user, query, title, now)
    case Counted(user, title) => IncrementMovieStat(s, user, title)
    case _ => s
  }

  /** Replays the store writes of a trace. */
  function ApplyEffects(s: Store, effects: seq<Effect>, now: int): Store
    decreases |effects|
  {
    if |effects| == 0 then s else ApplyEffects(Step(s, effects[0], now), effects[1..], now)
  }

  /** The canonical title of a resolved movie. */
  function TitleOf(env: Env, found: (MovieInfo, Card)): string {
    CanonicalTitle(env.show, found.0.title, found.0.year)
  }

  /** The video search request is the prefix "фильм", two spaces and the canonical title. */
  lemma VideoRequestText(title: string)
    ensures VideoRequest(title).q == "фильм" + "  " + title
    ensures VideoRequest(title).count == 50
  {
    assert Strip(BaseRequest) == BaseRequest by {
      assert !IsSpace(BaseRequest[0]) && !IsSpace(BaseRequest[4]);
      assert LeadingSpaces(BaseRequest) == 0;
    }
  }

  /**
   The store changes exactly when the input resolves, and then by one saved search and one
   increment, both for the input as stripped and the canonical title.
   */
  lemma RecordsExactlyWhenResolved(store: Store, env: Env, user: string, input: string,
                                   resolved: Outcome<(MovieInfo, Card)>)
    ensures After(store, env, user, input, resolved).store ==
      if resolved.Ok? then Record(store, user, input, TitleOf(env, resolved.value), env.now) else store
  {
  }

  /**
   A resolved input gives the trace: "searching", the movie request, the saved search, the
   increment, the video request for the same title, then the reply. The writes come before
   the video search.
   */
  lemma EffectOrder(store: Store, env: Env, user: string, input: string, resolved: Outcome<(MovieInfo, Card)>)
    requires resolved.Ok?
    ensures var h := After(store, env, user, input, resolved);
      var title := TitleOf(env, resolved.value);
      && |h.effects| == 6
      && h.effects[0] == Say(Searching(input))
      && h.effects[1] == AskMovies(KpRequestFor(input))
      && h.effects[2] == Saved(user, input, title)
      && h.effects[3] == Counted(user, title)
      && h.effects[4] == AskVideos(VideoRequest(title))
      && h.effects[5] == Say(Conclude(resolved.value.1, resolved.value.0,
                                      GetReferences(NewSearcher(BaseRequest), env.vk, title), env.extractOne, title))
  {
    var p := Proceed(store, env, user, input, resolved.value.0, resolved.value.1);
    assert After(store, env, user, input, resolved).effects[2..] == p.effects;
  }

  /**
   For a whole message: the store changes exactly when the stripped text is not empty and
   resolves, and then by `Record` of the stripped text and the canonical title.
   */
  lemma HandleRecords(store: Store, env: Env, user: string, text: string)
    ensures var input := Strip(text);
      var resolved := Resolve(env.kp, input);
      Handle(store, env, user, text).store ==
        if !IsBlank(text) && resolved.Ok? then Record(store, user, input, TitleOf(env, resolved.value), env.now)
        else store
  {
    if !IsBlank(text) {
      RecordsExactlyWhenResolved(store, env, user, Strip(text), Resolve(env.kp, Strip(text)));
    }
  }

  /** Handling a message keeps the store's row invariant: one row per (title, user), counts positive. */
  lemma HandleKeepsValid(store: Store, env: Env, user: string, text: string)
    requires Valid(store)
    ensures Valid(Handle(store, env, user, text).store)
  {
    HandleRecords(store, env, user, text);
  }

  /**
   The card of a resolved movie: a runtime line exactly for a truthy length, split into
   hours and minutes under 60, and each rating line exactly for a non-zero score.
   */
  lemma CardFollowsInfo(kp: KpRequest -> Response, input: string)
    ensures var r := Resolve(kp, input);
      r.Ok? ==>
        var (info, card) := r.value;
        && (card.runtime.Some? <==> Truthy(info.length))
        && (card.runtime.Some? ==>
              && 60.0 * card.runtime.value.hours as real + card.runtime.value.minutes == Number(info.length).value
              && 0.0 <= card.runtime.value.minutes < 60.0)
        && (card.kp.None? <==> IsZero(info.kp))
        && (card.imdb.None? <==> IsZero(info.imdb))
  {
  }

  /** Blank input only prompts for a title: no lookup and no write. */
  lemma BlankInputOnlyPrompts(store: Store, env: Env, user: string, text: string)
    requires IsBlank(text)
    ensures Handle(store, env, user, text) == Handled(store, [Say(AskForTitle)])
  {
  }

  /** A movie whose name is empty is reported as not found, and nothing is recorded. */
  lemma EmptyTitleIsNotFound(store: Store, env: Env, user: string, text: string)
    requires !IsBlank(text)
    requires GetInfo(env.kp, Strip(text)).Ok? && !Truthy(GetInfo(env.kp, Strip(text)).value.title)
    ensures Handle(store, env, user, text).store == store
    ensures Handle(store, env, user, text).effects[2] == Say(Failed(NotFound))
  {
  }

  /**
   A 200 answer from the movie database whose `docs` is empty (or otherwise falsy) is
   reported as not found, and nothing is recorded.
   */
  lemma EmptyDocsIsNotFound(store: Store, env: Env, user: string, text: string, fields: map<string, Json>)
    requires !IsBlank(text)
    requires env.kp(KpRequestFor(Strip(text))) == Response(200, Some(JObj(fields)))
    requires "docs" in fields && !Truthy(fields["docs"])
    ensures Handle(store, env, user, text).store == store
    ensures Handle(store, env, user, text).effects[2] == Say(Failed(NotFound))
  {
    assert GetKpInfoJson(env.kp, Strip(text)) == Err(NotFound);
  }

  /** A trace without store writes replays to the store it started from. */
  lemma {:induction false} NoWritesReplay(s: Store, effects: seq<Effect>, now: int)
    requires forall i :: 0 <= i < |effects| ==> !effects[i].Saved? && !effects[i].Counted?
    ensures ApplyEffects(s, effects, now) == s
    decreases |effects|
  {
    if |effects| > 0 {
      NoWritesReplay(s, effects[1..], now);
    }
  }

  /** Two leading effects that write nothing do not change what a trace replays to. */
  lemma SkipTwo(s: Store, a: Effect, b: Effect, rest: seq<Effect>, now: int)
    requires !a.Saved? && !a.Counted? && !b.Saved? && !b.Counted?
    ensures ApplyEffects(s, [a, b] + rest, now) == ApplyEffects(s, rest, now)
  {
    var e := [a, b] + rest;
    assert e[1..][1..] == rest;
  }

  /** A trace of a saved search, an increment and two effects without writes replays to `Record`. */
  lemma ReplayRecord(s: Store, e: seq<Effect>, now: int, user: string, input: string, title: string)
    requires |e| == 4
    requires e[0] == Saved(user, input, title) && e[1] == Counted(user, title)
    requires !e[2].Saved? && !e[2].Counted? && !e[3].Saved? && !e[3].Counted?
    ensures ApplyEffects(s, e, now) == Record(s, user, input, title, now)
  {
    var s2 := Step(Step(s, e[0], now), e[1], now);
    UnfoldTwo(s, e, now);
    NoWritesReplay(s2, e[2..], now);
    assert s2 == Record(s, user, input, title, now);
  }

  /** Replaying a trace is replaying its first two effects, then the rest. */
  lemma UnfoldTwo(s: Store, e: seq<Effect>, now: int)
    requires |e| >= 2
    ensures ApplyEffects(s, e, now) == ApplyEffects(Step(Step(s, e[0], now), e[1], now), e[2..], now)
  {
    assert e[1..][1..] == e[2..];
  }

  /** After the movie is found, the store is what replaying the remaining trace's writes gives. */
  lemma ProceedFollowsTrace(store: Store, env: Env, user: string, input: string, info: MovieInfo, card: Card)
    ensures Proceed(store, env, user, input, info, card).store
      == ApplyEffects(store, Proceed(store, env, user, input, info, card).effects, env.now)
  {
    var h := Proceed(store, env, user, input, info, card);
    ReplayRecord(store, h.effects, env.now, user, input, CanonicalTitle(env.show, info.title, info.year));
  }

  /** After resolution, the store is what replaying the trace's writes gives. */
  lemma AfterFollowsTrace(store: Store, env: Env, user: string, input: string, resolved: Outcome<(MovieInfo, Card)>)
    ensures After(store, env, user, input, resolved).store
      == ApplyEffects(store, After(store, env, user, input, resolved).effects, env.now)
  {
    var h := After(store, env, user, input, resolved);
    if resolved.Ok? {
      var rest := Proceed(store, env, user, input, resolved.value.0, resolved.value.1);
      SkipTwo(store, h.effects[0], h.effects[1], rest.effects, env.now);
      ProceedFollowsTrace(store, env, user, input, resolved.value.0, resolved.value.1);
    } else {
      NoWritesReplay(store, h.effects, env.now);
    }
  }

  /** For every message, the store after handling is what replaying the trace's writes gives. */
  lemma StoreFollowsTrace(store: Store, env: Env, user: string, text: string)
    ensures Handle(store, env, user, text).store == ApplyEffects(store, Handle(store, env, user, text).effects, env.now)
  {
    if IsBlank(text) {
      NoWritesReplay(store, [Say(AskForTitle)], env.now);
    } else {
      AfterFollowsTrace(store, env, user, Strip(text), Resolve(env.kp, Strip(text)));
    }
  }

  /** A failed video search does not undo the recorded search and increment. */
  lemma LookupFailureKeepsRecord(store: Store, env: Env, user: string, input: string,
                                 resolved: Outcome<(MovieInfo, Card)>)
    requires resolved.Ok?
    ensures var h := After(store, env, user, input, resolved);
      var refs := GetReferences(NewSearcher(BaseRequest), env.vk, TitleOf(env, resolved.value));
      && h.store == Record(store, user, input, TitleOf(env, resolved.value), env.now)
      && (refs.Err? ==> h.effects[5] == Say(Failed(refs.error)))
  {
    EffectOrder(store, env, user, input, resolved);
  }

  /**
   When the video search succeeds and the matcher picks from the list it was given, the
   card is sent; it carries a link exactly when the matcher picked something, and the link's
   URL is that of the first video with the chosen title.
   */
  lemma BestLinkFromChoice(card: Card, info: MovieInfo, refs: seq<Reference>,
                           extractOne: (string, seq<Json>) -> Option<Json>, title: string)
    requires IsChooser(extractOne)
    ensures var choice := extractOne(title, Titles(refs));
      var reply := Conclude(card, info, Ok(refs), extractOne, title);
      && reply.Found? && reply.card == card
      && (reply.link.Some? <==> choice.Some?)
      && (reply.link.Some? ==>
            && reply.link.value.title == choice.value
            && exists i :: 0 <= i < |refs| && refs[i] == Reference(choice.value, reply.link.value.url)
                           && forall j :: 0 <= j < i ==> refs[j].title != choice.value)
  {
  }
}

=== FILE: interaction_store.dfy ===
/**
 The bot's SQLite database (`db_manager.py`) as an immutable value: the `search_history`
 table is an append-only sequence of entries, the `movie_stats` table a sequence of rows
 in insertion (rowid) order. Timestamps are whole seconds supplied by the caller in place
 of `CURRENT_TIMESTAMP`.
 */
module InteractionStore {
  import opened Results
  import Ranking

  /** One `search_history` row. */
  datatype Entry = Entry(user: string, query: string, title: string, ts: int)

  /** One `movie_stats` row. */
  datatype StatRow = StatRow(title: string, user: string, count: nat)

  datatype Store = Store(history: seq<Entry>, stats: seq<StatRow>)

  /** `LIMIT 10` of both reports. */
  const HistoryLimit: nat := 10
  const StatsLimit: nat := 10

  /** The `UNIQUE(movie_title, user_id)` constraint, and every stored count is positive. */
  predicate Valid(s: Store) {
    && (forall i, j :: 0 <= i < j < |s.stats| ==>
          (s.stats[i].title, s.stats[i].user) != (s.stats[j].title, s.stats[j].user))
    && (forall i :: 0 <= i < |s.stats| ==> s.stats[i].count >= 1)
  }

  /** Timestamps never decrease along the history, as a real clock guarantees. */
  predicate ClockOrdered(s: Store) {
    forall i, j :: 0 <= i < j < |s.history| ==> s.history[i].ts <= s.history[j].ts
  }

  predicate Matches(row: StatRow, title: string, user: string) {
    row.title == title && row.user == user
  }

  /** Some row belongs to the pair; what `SELECT count ... fetchone()` tests. */
  predicate HasRow(rows: seq<StatRow>, title: string, user: string) {
    exists i :: 0 <= i < |rows| && Matches(rows[i], title, user)
  }

  /** The count stored for `(title, user)`, or 0 when there is no such row. */
  function CountOf(rows: seq<StatRow>, title: string, user: string): (c: nat)
    ensures c == 0 <== !HasRow(rows, title, user)
  {
    if |rows| == 0 then 0
    else if Matches(rows[0], title, user) then rows[0].count
    else CountOf(rows[1..], title, user)
  }

  /** Under the uniqueness constraint, the count of any row is the count of its pair. */
  lemma {:induction false} CountOfRow(rows: seq<StatRow>, i: nat)
    requires i < |rows|
    requires forall a, b :: 0 <= a < b < |rows| ==>
      (rows[a].title, rows[a].user) != (rows[b].title, rows[b].user)
    ensures CountOf(rows, rows[i].title, rows[i].user) == rows[i].count
  {
    if i > 0 {
      assert !Matches(rows[0], rows[i].title, rows[i].user) by {
        assert (rows[0].title, rows[0].user) != (rows[i].title, rows[i].user);
      }
      assert rows[1..][i - 1] == rows[i];
      CountOfRow(rows[1..], i - 1);
    }
  }

  /**
   `DBManager(...)`: `CREATE TABLE IF NOT EXISTS` keeps the tables of an existing database
   file and creates empty ones otherwise.
   */
  function Open(disk: Option<Store>): (s: Store)
    ensures disk.None? ==> s.history == [] && s.stats == [] && Valid(s) && ClockOrdered(s)
    ensures disk.Some? ==> s == disk.value
  {
    match disk
    case None => Store([], [])
    case Some(existing) => existing
  }

  /** `save_search`: one more history entry stamped `now`; nothing else changes. */
  function SaveSearch(s: Store, user: string, query: string, title: string, now: int): (s': Store)
    ensures |s'.history| == |s.history| + 1
    ensures s'.history[..|s.history|] == s.history
    ensures s'.history[|s.history|] == Entry(user, query, title, now)
    ensures s'.stats == s.stats
    ensures Valid(s) ==> Valid(s')
    ensures ClockOrdered(s) && (forall e :: e in s.history ==> e.ts <= now) ==> ClockOrdered(s')
  {
    s.(history := s.history + [Entry(user, query, title, now)])
  }

  /** The history entries of one user, oldest first. */
  function UserEntries(h: seq<Entry>, user: string): (r: seq<Entry>)
    ensures forall e :: e in r ==> e in h && e.user == user
    ensures forall e :: e in h && e.user == user ==> e in r
    ensures multiset(r) <= multiset(h)
  {
    if |h| == 0 then []
    else
      assert h == h[..|h| - 1] + [h[|h| - 1]];
      if h[|h| - 1].user == user then UserEntries(h[..|h| - 1], user) + [h[|h| - 1]]
      else UserEntries(h[..|h| - 1], user)
  }

  /** `WHERE user_id = ?` keeps every entry of the user as often as it is stored, and no other. */
  lemma {:induction false} UserEntriesFilter(h: seq<Entry>, user: string)
    ensures forall e :: multiset(UserEntries(h, user))[e] == if e.user == user then multiset(h)[e] else 0
  {
    if |h| > 0 {
      UserEntriesFilter(h[..|h| - 1], user);
      assert h == h[..|h| - 1] + [h[|h| - 1]];
    }
  }

  function Reverse<T>(xs: seq<T>): (r: seq<T>)
    ensures |r| == |xs|
    ensures forall i :: 0 <= i < |xs| ==> r[i] == xs[|xs| - 1 - i]
    ensures multiset(r) == multiset(xs)
  {
    if |xs| == 0 then []
    else
      assert xs == xs[..|xs| - 1] + [xs[|xs| - 1]];
      [xs[|xs| - 1]] + Reverse(xs[..|xs| - 1])
  }

  function EntryTs(e: Entry): int { e.ts }

  /**
   The rows `get_search_history` selects: `WHERE user_id = ? ORDER BY timestamp DESC LIMIT 10`.
   Entries with the same timestamp come newest insertion first.
   */
  function RecentEntries(s: Store, user: string): (r: seq<Entry>)
    ensures |r| <= HistoryLimit
    ensures RecentHistory(s, user, r)
  {
    var r := Ranking.TopK(Reverse(UserEntries(s.history, user)), EntryTs, HistoryLimit);
    RecentRanked(s, user);
    r
  }

  /**
   `r` is a history answer for `user`: as many of the user's entries as there are, up to
   the limit, each at most as often as it is stored, newest timestamp first, and no
   left-out entry of the user newer than the last one kept. Two identical entries (the same
   search twice in one second) are two rows, so an entry kept fewer times than it is stored
   counts as left out too.
   */
  predicate RecentHistory(s: Store, user: string, r: seq<Entry>) {
    && |r| == (if |UserEntries(s.history, user)| < HistoryLimit then |UserEntries(s.history, user)| else HistoryLimit)
    && multiset(r) <= multiset(UserEntries(s.history, user))
    && (forall e :: e in r ==> e in s.history && e.user == user)
    && (forall i, j :: 0 <= i < j < |r| ==> r[i].ts >= r[j].ts)
    && (forall e :: e in s.history && e.user == user && e !in r && |r| > 0 ==> e.ts <= r[|r| - 1].ts)
    && (forall e :: e in s.history && e.user == user && multiset(r)[e] < multiset(s.history)[e] && |r| > 0 ==>
          e.ts <= r[|r| - 1].ts)
  }

  /** The top entries by timestamp of the user's entries, newest insertion first, form a history answer. */
  lemma RecentRanked(s: Store, user: string)
    ensures RecentHistory(s, user, Ranking.TopK(Reverse(UserEntries(s.history, user)), EntryTs, HistoryLimit))
  {
    var u := UserEntries(s.history, user);
    var mine := Reverse(u);
    var r := Ranking.TopK(mine, EntryTs, HistoryLimit);
    assert |r| == if |u| < HistoryLimit then |u| else HistoryLimit by {
      assert |mine| == |u|;
    }
    assert multiset(r) <= multiset(u) by {
      assert multiset(r) <= multiset(mine);
    }
    assert forall e :: e in r ==> e in s.history && e.user == user by {
      ReversedEntries(s.history, user);
      TopKEntries(mine, r);
    }
    assert forall i, j :: 0 <= i < j < |r| ==> r[i].ts >= r[j].ts by {
      TopKEntries(mine, r);
    }
    assert forall e :: e in s.history && e.user == user && e !in r && |r| > 0 ==> e.ts <= r[|r| - 1].ts by {
      ReversedEntries(s.history, user);
      TopKEntries(mine, r);
    }
    RecentCopies(s.history, user, mine, r);
    assert RecentHistory(s, user, r);
  }

  /** A stored entry of the user kept fewer times than it is stored is no newer than the last one kept. */
  lemma RecentCopies(h: seq<Entry>, user: string, mine: seq<Entry>, r: seq<Entry>)
    requires mine == Reverse(UserEntries(h, user))
    requires r == Ranking.TopK(mine, EntryTs, HistoryLimit)
    ensures forall e :: e in h && e.user == user && multiset(r)[e] < multiset(h)[e] && |r| > 0 ==>
      e.ts <= r[|r| - 1].ts
  {
    forall e | e in h && e.user == user && multiset(r)[e] < multiset(h)[e] && |r| > 0
      ensures e.ts <= r[|r| - 1].ts
    {
      EntryCopies(h, user, e);
      assert EntryTs(e) <= EntryTs(r[|r| - 1]);
    }
  }

  /** One stored entry of the user occurs in the newest-first list as often as in the table. */
  lemma EntryCopies(h: seq<Entry>, user: string, e: Entry)
    requires e in h && e.user == user
    ensures e in Reverse(UserEntries(h, user))
    ensures multiset(Reverse(UserEntries(h, user)))[e] == multiset(h)[e]
  {
    UserEntriesFilter(h, user);
    assert e in multiset(Reverse(UserEntries(h, user)));
  }

  /** The reversed per-user list holds exactly the user's entries. */
  lemma ReversedEntries(h: seq<Entry>, user: string)
    ensures forall e :: e in Reverse(UserEntries(h, user)) <==> e in h && e.user == user
  {
    var u := UserEntries(h, user);
    var mine := Reverse(u);
    assert multiset(mine) == multiset(u);
    forall e
      ensures e in mine <==> e in u
    {
      assert e in mine <==> e in multiset(mine);
      assert e in u <==> e in multiset(u);
    }
  }

  /** What `TopK` by timestamp promises, spelled out with `ts`. */
  lemma TopKEntries(mine: seq<Entry>, r: seq<Entry>)
    requires r == Ranking.TopK(mine, EntryTs, HistoryLimit)
    ensures forall e :: e in r ==> e in mine
    ensures forall i, j :: 0 <= i < j < |r| ==> r[i].ts >= r[j].ts
    ensures forall e :: e in mine && e !in r && |r| > 0 ==> e.ts <= r[|r| - 1].ts
  {
    forall e | e in r
      ensures e in mine
    {
      assert e in multiset(r);
    }
    forall i, j | 0 <= i < j < |r|
      ensures r[i].ts >= r[j].ts
    {
      assert EntryTs(r[i]) >= EntryTs(r[j]);
    }
    forall e | e in mine && e !in r && |r| > 0
      ensures e.ts <= r[|r| - 1].ts
    {
      assert EntryTs(e) <= EntryTs(r[|r| - 1]);
    }
  }

  /** `get_search_history`: the `(query, movie_title)` pairs of the selected rows. */
  function GetSearchHistory(s: Store, user: string): (r: seq<(string, string)>)
    ensures |r| == |RecentEntries(s, user)| <= HistoryLimit
    ensures forall i :: 0 <= i < |r| ==>
      r[i] == (RecentEntries(s, user)[i].query, RecentEntries(s, user)[i].title)
  {
    var rows := RecentEntries(s, user);
    seq(|rows|, i requires 0 <= i < |rows| => (rows[i].query, rows[i].title))
  }

  /**
   `increment_movie_stat`: when a row for `(title, user)` exists, `UPDATE ... SET count = count + 1`
   on it; otherwise `INSERT` a row with count 1.
   */
  function IncrementMovieStat(s: Store, user: string, title: string): (s': Store)
    ensures s'.history == s.history
    ensures CountOf(s'.stats, title, user) == CountOf(s.stats, title, user) + 1
    ensures forall t, u :: (t, u) != (title, user) ==> CountOf(s'.stats, t, u) == CountOf(s.stats, t, u)
    ensures HasRow(s'.stats, title, user)
    ensures Valid(s) ==> Valid(s')
  {
    if HasRow(s.stats, title, user) then
      var rows := Bump(s.stats, title, user);
      s.(stats := rows)
    else
      var rows := s.stats + [StatRow(title, user, 1)];
      AppendCount(s.stats, StatRow(title, user, 1));
      assert rows[|s.stats|] == StatRow(title, user, 1);
      s.(stats := rows)
  }

  /** The `UPDATE` statement: every row of the pair gets one more; the rest stay put. */
  function Bump(rows: seq<StatRow>, title: string, user: string): (r: seq<StatRow>)
    requires HasRow(rows, title, user)
    ensures |r| == |rows|
    ensures forall i :: 0 <= i < |r| ==> (r[i].title, r[i].user) == (rows[i].title, rows[i].user)
    ensures forall i :: 0 <= i < |r| ==> r[i].count >= rows[i].count
    ensures CountOf(r, title, user) == CountOf(rows, title, user) + 1
    ensures forall t, u :: (t, u) != (title, user) ==> CountOf(r, t, u) == CountOf(rows, t, u)
    ensures HasRow(r, title, user)
  {
    var r := seq(|rows|, i requires 0 <= i < |rows| =>
      if Matches(rows[i], title, user) then rows[i].(count := rows[i].count + 1) else rows[i]);
    BumpCounts(rows, r, title, user);
    r
  }

  lemma {:induction false} BumpCounts(rows: seq<StatRow>, r: seq<StatRow>, title: string, user: string)
    requires |r| == |rows|
    requires forall i :: 0 <= i < |rows| ==>
      r[i] == if Matches(rows[i], title, user) then rows[i].(count := rows[i].count + 1) else rows[i]
    requires HasRow(rows, title, user)
    ensures CountOf(r, title, user) == CountOf(rows, title, user) + 1
    ensures forall t, u :: (t, u) != (title, user) ==> CountOf(r, t, u) == CountOf(rows, t, u)
  {
    if !Matches(rows[0], title, user) {
      var i :| 0 <= i < |rows| && Matches(rows[i], title, user);
      assert rows[1..][i - 1] == rows[i];
      BumpCounts(rows[1..], r[1..], title, user);
    }
    forall t, u | (t, u) != (title, user)
      ensures CountOf(r, t, u) == CountOf(rows, t, u)
    {
      BumpOthers(rows, r, title, user, t, u);
    }
  }

  lemma {:induction false} BumpOthers(rows: seq<StatRow>, r: seq<StatRow>, title: string, user: string,
                                       t: string, u: string)
    requires |r| == |rows|
    requires forall i :: 0 <= i < |rows| ==>
      r[i] == if Matches(rows[i], title, user) then rows[i].(count := rows[i].count + 1) else rows[i]
    requires (t, u) != (title, user)
    ensures CountOf(r, t, u) == CountOf(rows, t, u)
  {
    if |rows| > 0 {
      BumpOthers(rows[1..], r[1..], title, user, t, u);
    }
  }

  /** Appending a row with a new pair leaves every other pair's count alone. */
  lemma {:induction false} AppendCount(rows: seq<StatRow>, row: StatRow)
    requires !HasRow(rows, row.title, row.user)
    ensures CountOf(rows + [row], row.title, row.user) == row.count
    ensures forall t, u :: (t, u) != (row.title, row.user) ==> CountOf(rows + [row], t, u) == CountOf(rows, t, u)
  {
    if |rows| > 0 {
      assert (rows + [row])[1..] == rows[1..] + [row];
      assert !HasRow(rows[1..], row.title, row.user) by {
        forall i | 0 <= i < |rows[1..]|
          ensures !Matches(rows[1..][i], row.title, row.user)
        {
          assert rows[1..][i] == rows[i + 1];
        }
      }
      AppendCount(rows[1..], row);
    } else {
      assert rows + [row] == [row];
    }
  }

  /** The `movie_stats` rows of one user, in table order. */
  function UserRows(rows: seq<StatRow>, user: string): seq<StatRow> {
    if |rows| == 0 then []
    else if rows[0].user == user then [rows[0]] + UserRows(rows[1..], user)
    else UserRows(rows[1..], user)
  }

  /** The user's rows are exactly the rows whose user is `user`. */
  lemma {:induction false} UserRowsMembers(rows: seq<StatRow>, user: string)
    ensures forall x :: x in UserRows(rows, user) <==> x in rows && x.user == user
    ensures forall x :: multiset(UserRows(rows, user))[x] == if x.user == user then multiset(rows)[x] else 0
  {
    if |rows| > 0 {
      UserRowsMembers(rows[1..], user);
      assert rows == [rows[0]] + rows[1..];
    }
  }

  function RowCount(row: StatRow): int { row.count }

  /**
   `r` is what `WHERE user_id = ? ORDER BY count DESC LIMIT 10` may return: as many of the
   user's rows as there are, up to 10, counts never increasing, and no row of the user left
   out (or kept fewer times than it is stored) with a larger count than the last one kept.
   */
  predicate RankedStats(s: Store, user: string, r: seq<StatRow>) {
    && |r| == (if |UserRows(s.stats, user)| < StatsLimit then |UserRows(s.stats, user)| else StatsLimit)
    && multiset(r) <= multiset(UserRows(s.stats, user))
    && (forall x :: x in r ==> x in s.stats && x.user == user)
    && (forall i, j :: 0 <= i < j < |r| ==> r[i].count >= r[j].count)
    && (forall x :: x in s.stats && x.user == user && x !in r && |r| > 0 ==> x.count <= r[|r| - 1].count)
    && (forall x :: x in s.stats && x.user == user && multiset(r)[x] < multiset(s.stats)[x] && |r| > 0 ==>
          x.count <= r[|r| - 1].count)
  }

  /** The rows `get_movie_stats` selects; rows with equal counts keep table order. */
  function TopRows(s: Store, user: string): (r: seq<StatRow>)
    ensures |r| <= StatsLimit
    ensures RankedStats(s, user, r)
  {
    var r := Ranking.TopK(UserRows(s.stats, user), RowCount, StatsLimit);
    TopKRows(s, user);
    r
  }

  /** What `TopK` by count promises about the user's rows, spelled out with `count`. */
  lemma TopKRows(s: Store, user: string)
    ensures RankedStats(s, user, Ranking.TopK(UserRows(s.stats, user), RowCount, StatsLimit))
  {
    var r := Ranking.TopK(UserRows(s.stats, user), RowCount, StatsLimit);
    var mine := UserRows(s.stats, user);
    UserRowsMembers(s.stats, user);
    forall x | x in r
      ensures x in s.stats && x.user == user
    {
      assert x in multiset(r);
      assert x in mine;
    }
    forall i, j | 0 <= i < j < |r|
      ensures r[i].count >= r[j].count
    {
      assert RowCount(r[i]) >= RowCount(r[j]);
    }
    forall x | x in s.stats && x.user == user && x !in r && |r| > 0
      ensures x.count <= r[|r| - 1].count
    {
      assert x in mine;
      assert RowCount(x) <= RowCount(r[|r| - 1]);
    }
    RowCopies(s.stats, user, r);
  }

  /** A stored row of the user kept fewer times than it is stored has no higher count than the last one kept. */
  lemma RowCopies(rows: seq<StatRow>, user: string, r: seq<StatRow>)
    requires r == Ranking.TopK(UserRows(rows, user), RowCount, StatsLimit)
    ensures forall x :: x in rows && x.user == user && multiset(r)[x] < multiset(rows)[x] && |r| > 0 ==>
      x.count <= r[|r| - 1].count
  {
    forall x | x in rows && x.user == user && multiset(r)[x] < multiset(rows)[x] && |r| > 0
      ensures x.count <= r[|r| - 1].count
    {
      RowCopy(rows, user, x);
      assert RowCount(x) <= RowCount(r[|r| - 1]);
    }
  }

  /** One stored row of the user occurs among the user's rows as often as in the table. */
  lemma RowCopy(rows: seq<StatRow>, user: string, x: StatRow)
    requires x in rows && x.user == user
    ensures x in UserRows(rows, user)
    ensures multiset(UserRows(rows, user))[x] == multiset(rows)[x]
  {
    UserRowsMembers(rows, user);
  }

  /** `get_movie_stats`: the `(movie_title, count)` pairs of the selected rows. */
  function GetMovieStats(s: Store, user: string): (r: seq<(string, nat)>)
    ensures |r| == |TopRows(s, user)| <= StatsLimit
    ensures forall i :: 0 <= i < |r| ==> r[i] == (TopRows(s, user)[i].title, TopRows(s, user)[i].count)
  {
    var rows := TopRows(s, user);
    seq(|rows|, i requires 0 <= i < |rows| => (rows[i].title, rows[i].count))
  }
}

/** Properties that relate several store operations. */
module StoreLaws {
  import opened Results
  import opened InteractionStore
  import Ranking

  /** A new entry is invisible to every other user's history, and to every stats report. */
  lemma SaveSearchFrame(s: Store, user: string, query: string, title: string, now: int, other: string)
    requires other != user
    ensures GetSearchHistory(SaveSearch(s, user, query, title, now), other) == GetSearchHistory(s, other)
    ensures GetMovieStats(SaveSearch(s, user, query, title, now), other) == GetMovieStats(s, other)
    ensures GetMovieStats(SaveSearch(s, user, query, title, now), user) == GetMovieStats(s, user)
  {
    var h := s.history + [Entry(user, query, title, now)];
    assert h[..|h| - 1] == s.history;
    assert UserEntries(h, other) == UserEntries(s.history, other);
  }

  /** Under a monotone clock one user's entries are in timestamp order too. */
  lemma {:induction false} UserEntriesAscending(h: seq<Entry>, user: string)
    requires forall i, j :: 0 <= i < j < |h| ==> h[i].ts <= h[j].ts
    ensures forall i, j :: 0 <= i < j < |UserEntries(h, user)| ==>
      UserEntries(h, user)[i].ts <= UserEntries(h, user)[j].ts
  {
    if |h| > 0 {
      var init := h[..|h| - 1];
      UserEntriesAscending(init, user);
      if h[|h| - 1].user == user {
        var u := UserEntries(init, user);
        forall i | 0 <= i < |u|
          ensures u[i].ts <= h[|h| - 1].ts
        {
          assert u[i] in init;
        }
      }
    }
  }

  /**
   With a clock that never runs backwards, `get_search_history` shows the user's ten most
   recent searches (fewer if there are fewer), newest first.
   */
  lemma MostRecentFirst(s: Store, user: string)
    requires ClockOrdered(s)
    ensures var newestFirst := Reverse(UserEntries(s.history, user));
      RecentEntries(s, user) == if |newestFirst| <= HistoryLimit then newestFirst else newestFirst[..HistoryLimit]
  {
    var u := UserEntries(s.history, user);
    UserEntriesAscending(s.history, user);
    var mine := Reverse(u);
    assert Ranking.Descending(mine, EntryTs) by {
      forall i, j | 0 <= i < j < |mine|
        ensures EntryTs(mine[i]) >= EntryTs(mine[j])
      {
        assert mine[i] == u[|u| - 1 - i] && mine[j] == u[|u| - 1 - j];
      }
    }
    Ranking.TopKOfDescending(mine, EntryTs, HistoryLimit);
  }

  /** Right after a search is saved at the latest time, it heads the user's history. */
  lemma LatestSearchFirst(s: Store, user: string, query: string, title: string, now: int)
    requires ClockOrdered(s)
    requires forall e :: e in s.history ==> e.ts <= now
    ensures GetSearchHistory(SaveSearch(s, user, query, title, now), user)[0] == (query, title)
  {
    var s' := SaveSearch(s, user, query, title, now);
    var latest := Entry(user, query, title, now);
    var newestFirst := Reverse(UserEntries(s'.history, user));
    assert newestFirst[0] == latest by {
      var h := s'.history;
      assert h[..|h| - 1] == s.history;
      assert UserEntries(h, user) == UserEntries(s.history, user) + [latest];
    }
    assert RecentEntries(s', user)[0] == latest by {
      assert ClockOrdered(s');
      MostRecentFirst(s', user);
    }
  }

  /** Every count in the stats report is the count stored for that title. */
  lemma StatsReportCounts(s: Store, user: string)
    requires Valid(s)
    ensures forall i :: 0 <= i < |GetMovieStats(s, user)| ==>
      CountOf(s.stats, GetMovieStats(s, user)[i].0, user) == GetMovieStats(s, user)[i].1 >= 1
  {
    var rows := TopRows(s, user);
    forall i | 0 <= i < |rows|
      ensures CountOf(s.stats, rows[i].title, user) == rows[i].count >= 1
    {
      assert rows[i] in rows;
      var k :| 0 <= k < |s.stats| && s.stats[k] == rows[i];
      CountOfRow(s.stats, k);
    }
  }

  /** The store after a run of `increment_movie_stat` calls, each `(user, title)`. */
  function IncrementAll(s: Store, calls: seq<(string, string)>): (s': Store)
    ensures s'.history == s.history
    ensures Valid(s) ==> Valid(s')
    decreases |calls|
  {
    if |calls| == 0 then s
    else IncrementAll(IncrementMovieStat(s, calls[0].0, calls[0].1), calls[1..])
  }

  /** How often `(user, title)` occurs among the calls. */
  function Occurrences(calls: seq<(string, string)>, user: string, title: string): nat {
    if |calls| == 0 then 0
    else (if calls[0] == (user, title) then 1 else 0) + Occurrences(calls[1..], user, title)
  }

  /** The stored count is the stored count before plus the number of increments of that pair. */
  lemma {:induction false} CountIsOccurrences(s: Store, calls: seq<(string, string)>, user: string, title: string)
    ensures CountOf(IncrementAll(s, calls).stats, title, user)
      == CountOf(s.stats, title, user) + Occurrences(calls, user, title)
    decreases |calls|
  {
    if |calls| > 0 {
      CountIsOccurrences(IncrementMovieStat(s, calls[0].0, calls[0].1), calls[1..], user, title);
    }
  }

  /** Two searches for Dune and one for Arrival report Dune twice, then Arrival once. */
  lemma StatsExample(u: string)
    ensures GetMovieStats(IncrementAll(Open(None), [(u, "Dune"), (u, "Dune"), (u, "Arrival")]), u)
      == [("Dune", 2), ("Arrival", 1)]
  {
    ExampleCounts(u);
    ExampleReport(IncrementAll(Open(None), [(u, "Dune"), (u, "Dune"), (u, "Arrival")]), u);
  }

  lemma ExampleCounts(u: string)
    ensures IncrementAll(Open(None), [(u, "Dune"), (u, "Dune"), (u, "Arrival")]).stats
      == [StatRow("Dune", u, 2), StatRow("Arrival", u, 1)]
  {
    var s0 := Open(None);
    var s1 := IncrementMovieStat(s0, u, "Dune");
    assert s1.stats == [StatRow("Dune", u, 1)];
    var s2 := IncrementMovieStat(s1, u, "Dune");
    assert HasRow(s1.stats, "Dune", u);
    assert s2.stats == [StatRow("Dune", u, 2)];
    var s3 := IncrementMovieStat(s2, u, "Arrival");
    assert !HasRow(s2.stats, "Arrival", u);
    assert s3.stats == [StatRow("Dune", u, 2), StatRow("Arrival", u, 1)];
    var c3: seq<(string, string)> := [(u, "Dune"), (u, "Dune"), (u, "Arrival")];
    var c2: seq<(string, string)> := [(u, "Dune"), (u, "Arrival")];
    var c1: seq<(string, string)> := [(u, "Arrival")];
    assert c3[1..] == c2 && c2[1..] == c1 && c1[1..] == [];
    assert IncrementAll(s3, []) == s3;
    assert IncrementAll(s2, c1) == s3;
    assert IncrementAll(s1, c2) == s3;
    assert IncrementAll(s0, c3) == s3;
  }

  lemma ExampleReport(s: Store, u: string)
    requires s.stats == [StatRow("Dune", u, 2), StatRow("Arrival", u, 1)]
    ensures GetMovieStats(s, u) == [("Dune", 2), ("Arrival", 1)]
  {
    assert s.stats[1..] == [StatRow("Arrival", u, 1)];
    assert s.stats[1..][1..] == [];
    assert UserRows(s.stats[1..], u) == s.stats[1..];
    assert UserRows(s.stats, u) == s.stats;
    assert Ranking.Descending(s.stats, RowCount);
    Ranking.SortDescOfDescending(s.stats, RowCount);
  }
}

=== FILE: json.dfy ===
/**
 JSON values as Python's `json` module hands them to the bot, with the few Python
 operations the bot applies to them: truthiness, `value[key]`, `value[0]`, `key in value`
 and comparison with `0`. Every way these raise is an `Error`.
 */
module Json {
  import opened Results
  import opened Text

  /** A decoded JSON document. Numbers are exact reals; Python's int/float split is not kept. */
  datatype Json =
    | JNull
    | JBool(b: bool)
    | JNum(n: real)
    | JStr(s: string)
    | JArr(items: seq<Json>)
    | JObj(fields: map<string, Json>)

  /** The exceptions the search pipeline can raise; the handler reports any of them. */
  datatype Error =
    | EmptyRequest          // CinemaBotException for a blank reference request
    | NotFound              // CinemaBotException when nothing was found
    | KeyError(key: Json)   // a dictionary lacks the key
    | IndexError            // `[0]` on an empty list or string
    | TypeError             // subscripting, iterating or dividing a value of the wrong kind
    | AttributeError        // `.split` on something that is not a string
    | NoSuchReference       // `next(...)` found no reference with the chosen title
    | TransportError        // the HTTP request itself failed
    | DecodeError           // a 200 response whose body is not JSON

  type Outcome<T> = Result<T, Error>

  /** Python's `bool(value)`. */
  predicate Truthy(j: Json) {
    match j
    case JNull => false
    case JBool(b) => b
    case JNum(n) => n != 0.0
    case JStr(s) => |s| > 0
    case JArr(a) => |a| > 0
    case JObj(m) => |m| > 0
  }

  /** Python's `value == 0` (note `False == 0`). */
  predicate IsZero(j: Json) {
    j == JNum(0.0) || j == JBool(false)
  }

  /** Python's `value[key]` with a string key. */
  function Get(j: Json, key: string): (r: Outcome<Json>)
    ensures r.Ok? <==> j.JObj? && key in j.fields
    ensures r.Ok? ==> r.value == j.fields[key]
    ensures r.Err? ==> r.error == (if j.JObj? then KeyError(JStr(key)) else TypeError)
  {
    match j
    case JObj(m) => if key in m then Ok(m[key]) else Err(KeyError(JStr(key)))
    case _ => Err(TypeError)
  }

  /** Python's `value[0]`: the first element of a list, the first character of a string. */
  function First(j: Json): (r: Outcome<Json>)
    ensures j.JArr? && |j.items| > 0 ==> r == Ok(j.items[0])
    ensures j.JStr? && |j.s| > 0 ==> r == Ok(JStr(j.s[..1]))
    ensures r.Ok? ==> (j.JArr? || j.JStr?) && Truthy(j)
  {
    match j
    case JArr(a) => if |a| > 0 then Ok(a[0]) else Err(IndexError)
    case JStr(s) => if |s| > 0 then Ok(JStr(s[..1])) else Err(IndexError)
    case JObj(_) => Err(KeyError(JNum(0.0)))
    case _ => Err(TypeError)
  }

  /** Python's `key in value` for a string key: dictionary keys, list members or substrings. */
  function Has(j: Json, key: string): (r: Outcome<bool>)
    ensures r.Ok? <==> j.JObj? || j.JArr? || j.JStr?
    ensures j.JObj? ==> r == Ok(key in j.fields)
    ensures j.JArr? ==> r == Ok(JStr(key) in j.items)
    ensures j.JStr? ==> r == Ok(exists i :: OccursAt(j.s, key, i))
  {
    match j
    case JObj(m) => Ok(key in m)
    case JArr(a) => Ok(JStr(key) in a)
    case JStr(s) =>
      ContainsAt(s, key);
      Ok(Contains(s, key))
    case _ => Err(TypeError)
  }

  /** A one-entry dictionary `{key: text}`. */
  function Singleton(key: string, text: string): (j: Json)
    ensures j.JObj? && j.fields.Keys == {key}
  {
    JObj(map[key := JStr(text)])
  }
}

=== FILE: ranking.dfy ===
/**
 `ORDER BY key DESC LIMIT k` over a sequence of rows: a descending insertion sort followed by
 taking a prefix.
 */
module Ranking {

  /** Keys never increase from left to right. */
  predicate Descending<T>(xs: seq<T>, key: T -> int) {
    forall i, j :: 0 <= i < j < |xs| ==> key(xs[i]) >= key(xs[j])
  }

  /** Places `x` before the first row of `ys` whose key is not larger than its own. */
  function Insert<T>(x: T, ys: seq<T>, key: T -> int): (r: seq<T>)
    requires Descending(ys, key)
    ensures |r| == |ys| + 1
    ensures r[0] == x || (|ys| > 0 && r[0] == ys[0])
    ensures multiset(r) == multiset(ys) + multiset{x}
    ensures Descending(r, key)
  {
    if |ys| == 0 || key(ys[0]) <= key(x) then
      [x] + ys
    else
      var tail := Insert(x, ys[1..], key);
      assert ys == [ys[0]] + ys[1..];
      assert key(ys[0]) >= key(tail[0]);
      var r := [ys[0]] + tail;
      assert Descending(r, key) by {
        forall i, j | 0 <= i < j < |r|
          ensures key(r[i]) >= key(r[j])
        {
          if i == 0 && j > 1 {
            assert key(tail[0]) >= key(tail[j - 1]);
          }
        }
      }
      r
  }

  /** Descending sort by `key`: a permutation of `xs` whose keys never increase. */
  function SortDesc<T>(xs: seq<T>, key: T -> int): (r: seq<T>)
    ensures multiset(r) == multiset(xs)
    ensures |r| == |xs|
    ensures Descending(r, key)
  {
    if |xs| == 0 then
      []
    else
      assert xs == [xs[0]] + xs[1..];
      var r := Insert(xs[0], SortDesc(xs[1..], key), key);
      assert |r| == |multiset(r)|;
      r
  }

  /** Input already in descending order is left exactly as it is. */
  lemma {:induction false} SortDescOfDescending<T>(xs: seq<T>, key: T -> int)
    requires Descending(xs, key)
    ensures SortDesc(xs, key) == xs
  {
    if |xs| > 0 {
      assert Descending(xs[1..], key);
      SortDescOfDescending(xs[1..], key);
    }
  }

  /**
   The first `k` rows of `xs` by descending key: as many rows as there are, up to `k`,
   in descending order, drawn from `xs`, and no row left out has a larger key than the
   last row kept.
   */
  function TopK<T(==)>(xs: seq<T>, key: T -> int, k: nat): (r: seq<T>)
    ensures |r| == if |xs| < k then |xs| else k
    ensures Descending(r, key)
    ensures multiset(r) <= multiset(xs)
    ensures forall x :: x in xs && x !in r && |r| > 0 ==> key(x) <= key(r[|r| - 1])
    ensures forall x :: x in xs && multiset(r)[x] < multiset(xs)[x] && |r| > 0 ==> key(x) <= key(r[|r| - 1])
  {
    var sorted := SortDesc(xs, key);
    var n := if |sorted| <= k then |sorted| else k;
    LeftOutRanksLower(xs, sorted, key, n);
    sorted[..n]
  }

  /** On input already in descending order, the top `k` are simply the first `k`. */
  lemma TopKOfDescending<T>(xs: seq<T>, key: T -> int, k: nat)
    requires Descending(xs, key)
    ensures TopK(xs, key, k) == if |xs| <= k then xs else xs[..k]
  {
    SortDescOfDescending(xs, key);
    assert xs[..|xs|] == xs;
  }

  /**
   Keeping the first `n` rows of a descending permutation of `xs`: what is kept is drawn from
   `xs`, and every copy that is not kept sits after the cut, so it ranks no higher than the
   last row kept.
   */
  lemma LeftOutRanksLower<T>(xs: seq<T>, sorted: seq<T>, key: T -> int, n: nat)
    requires multiset(sorted) == multiset(xs)
    requires Descending(sorted, key)
    requires n <= |sorted|
    ensures multiset(sorted[..n]) <= multiset(xs)
    ensures forall x :: x in xs && x !in sorted[..n] && n > 0 ==> key(x) <= key(sorted[n - 1])
    ensures forall x :: x in xs && multiset(sorted[..n])[x] < multiset(xs)[x] && n > 0 ==>
      key(x) <= key(sorted[n - 1])
  {
    assert sorted == sorted[..n] + sorted[n..];
    assert multiset(xs) == multiset(sorted[..n]) + multiset(sorted[n..]);
    forall x | x in xs && multiset(sorted[..n])[x] < multiset(xs)[x] && n > 0
      ensures key(x) <= key(sorted[n - 1])
    {
      assert x in multiset(sorted[n..]);
      var j :| n <= j < |sorted| && sorted[j] == x;
    }
    forall x | x in xs && x !in sorted[..n] && n > 0
      ensures key(x) <= key(sorted[n - 1])
    {
      assert x in multiset(xs);
      assert multiset(sorted[..n])[x] == 0;
    }
  }
}

=== FILE: results.dfy ===
/** Failure-compatible wrappers shared by every module of the model. */
module Results {

  /** A value that may be absent (Python's `None`). */
  datatype Option<+T> = None | Some(value: T)

  /** The outcome of a step that may raise: `Ok` carries the value, `Err` the exception. */
  datatype Result<+T, +E> = Ok(value: T) | Err(error: E) {

    predicate IsFailure() {
      Err?
    }

    function PropagateFailure<U>(): Result<U, E>
      requires Err?
    {
      Err(error)
    }

    function Extract(): T
      requires Ok?
    {
      value
    }
  }
}

=== FILE: search_handler.dfy ===
/**
 The search pipeline of `movie_search_handler` (`cinemabot.py`) for one text message:
 strip the text, resolve the movie, shape the reply card, record the search and count the
 title, look up videos and pick the best one. Chat messages, HTTP requests and store writes
 are returned as a trace of effects next to the new store.
 */
module SearchHandler {
  import opened Results
  import opened Text
  import opened Json
  import opened Searcher
  import opened InteractionStore

  /** The topical prefix the bot's searcher is built with. */
  const BaseRequest: string := "фильм"

  /** The description preview is cut to this many characters. */
  const PreviewLength: nat := 500
  const Ellipsis: string := "..."

  /** Runtime split as `length // 60` hours and `length % 60` minutes. */
  datatype Runtime = Runtime(hours: int, minutes: real)

  /** The movie card the bot sends, before HTML formatting. */
  datatype Card = Card(title: Json, year: Json, runtime: Option<Runtime>, preview: string,
                       kp: Option<Json>, imdb: Option<Json>)

  /** The video link appended to the card. */
  datatype Link = Link(title: Json, url: Json)

  /** What the bot says in the chat. */
  datatype Reply =
    | AskForTitle
    | Searching(input: string)
    | Found(card: Card, link: Option<Link>, photo: Option<Json>)
    | Failed(error: Error)

  /** Observable steps, in the order the handler performs them. */
  datatype Effect =
    | Say(reply: Reply)
    | AskMovies(kpRequest: KpRequest)
    | AskVideos(vkRequest: VkRequest)
    | Saved(user: string, query: string, title: string)
    | Counted(user: string, title: string)

  /**
   Everything outside the handler: the two providers, Python's `str()` of a JSON value (used
   by the f-strings), `rapidfuzz.process.extractOne`, and the clock.
   */
  datatype Env = Env(kp: KpRequest -> Response, vk: VkRequest -> Response, show: Json -> string,
                     extractOne: (string, seq<Json>) -> Option<Json>, now: int)

  /** The store after the message and the effects of handling it. */
  datatype Handled = Handled(store: Store, effects: seq<Effect>)

  /** `extractOne` answers nothing or one of the candidates it was given. */
  ghost predicate IsChooser(extractOne: (string, seq<Json>) -> Option<Json>) {
    forall q, cs :: extractOne(q, cs).Some? ==> extractOne(q, cs).value in cs
  }

  /** The number Python's `//` and `%` see in a JSON value (`True` is 1), if it is a number. */
  function Number(j: Json): Option<real> {
    match j
    case JNum(n) => Some(n)
    case JBool(b) => Some(if b then 1.0 else 0.0)
    case _ => None
  }

  /**
   The runtime line: absent for a falsy length; otherwise whole hours and the remaining
   minutes, as Python's floor division and modulo by 60 give them. A truthy length that is
   not a number raises.
   */
  function RuntimeOf(length: Json): (r: Outcome<Option<Runtime>>)
    ensures r == Ok(None) <==> !Truthy(length)
    ensures r.Err? <==> Truthy(length) && Number(length).None?
    ensures r.Ok? && r.value.Some? ==>
      && 60.0 * r.value.value.hours as real + r.value.value.minutes == Number(length).value
      && 0.0 <= r.value.value.minutes < 60.0
  {
    if !Truthy(length) then
      Ok(None)
    else
      match Number(length)
      case None => Err(TypeError)
      case Some(n) =>
        var hours := (n / 60.0).Floor;
        Ok(Some(Runtime(hours, n - 60.0 * hours as real)))
  }

  /** For an integer length the split is Python's `length // 60` and `length % 60` on ints. */
  lemma RuntimeOfInt(n: int)
    requires n != 0
    ensures RuntimeOf(JNum(n as real)) == Ok(Some(Runtime(n / 60, (n % 60) as real)))
  {
    var q, m := n / 60, n % 60;
    assert n as real == 60.0 * q as real + m as real;
    assert (n as real / 60.0) == q as real + m as real / 60.0;
    assert (n as real / 60.0).Floor == q;
  }

  /** The description preview: the first 500 characters, and `...` when something was cut. */
  function Preview(d: string): (r: string)
    ensures |d| <= PreviewLength ==> r == d
    ensures |d| > PreviewLength ==> |r| == PreviewLength + |Ellipsis|
    ensures |d| > PreviewLength ==> r[..PreviewLength] == d[..PreviewLength] && r[PreviewLength..] == Ellipsis
  {
    var shown := if |d| <= PreviewLength then d else d[..PreviewLength];
    shown + (if |d| > PreviewLength then Ellipsis else "")
  }

  /** A rating line is shown only for a score that is not zero. */
  function Rating(score: Json): (r: Option<Json>)
    ensures r.None? <==> IsZero(score)
    ensures r.Some? ==> r.value == score
  {
    if IsZero(score) then None else Some(score)
  }

  /** The card for a resolved movie; the description is cleaned once more before the preview. */
  function CardOf(info: MovieInfo): (r: Outcome<Card>)
    ensures r.Ok? <==> RuntimeOf(info.length).Ok?
    ensures r.Ok? ==> r.value.title == info.title && r.value.year == info.year
    ensures r.Ok? ==> r.value.preview == Preview(Normalise(info.description))
    ensures r.Ok? ==> r.value.runtime == RuntimeOf(info.length).value
    ensures r.Ok? ==> r.value.kp == Rating(info.kp) && r.value.imdb == Rating(info.imdb)
  {
    var runtime :- RuntimeOf(info.length);
    Ok(Card(info.title, info.year, runtime, Preview(Normalise(info.description)),
            Rating(info.kp), Rating(info.imdb)))
  }

  /**
   Cleaning the description again in the handler changes nothing: the card shows the
   preview of the description `get_info` produced.
   */
  lemma CardPreviewOfInfo(doc: Json)
    requires InfoFromDoc(doc).Ok? && CardOf(InfoFromDoc(doc).value).Ok?
    ensures CardOf(InfoFromDoc(doc).value).value.preview == Preview(InfoFromDoc(doc).value.description)
  {
    NormaliseIdempotent(doc.fields["description"].s);
  }

  /** Python's `str()` of a string is the string itself. */
  ghost predicate ShowsStringsAsThemselves(show: Json -> string) {
    forall t :: show(JStr(t)) == t
  }

  /** The canonical title `"{title} ({year})"`. */
  function CanonicalTitle(show: Json -> string, title: Json, year: Json): (c: string)
    ensures |c| == |show(title)| + |show(year)| + 3
    ensures c[..|show(title)|] == show(title)
    ensures c[|show(title)|..|show(title)| + 2] == " ("
    ensures c[|show(title)| + 2..|c| - 1] == show(year)
    ensures c[|c| - 1] == ')'
    ensures !IsBlank(c)
  {
    var c := show(title) + " (" + show(year) + ")";
    assert !IsSpace(c[|show(title)| + 1]);
    c
  }

  /** Resolving the input: metadata, the empty-title check, and the card. */
  function Resolve(kp: KpRequest -> Response, input: string): (r: Outcome<(MovieInfo, Card)>)
    ensures r.Ok? ==> GetInfo(kp, input) == Ok(r.value.0) && Truthy(r.value.0.title)
    ensures r.Ok? ==> CardOf(r.value.0) == Ok(r.value.1)
    ensures GetInfo(kp, input).Ok? && !Truthy(GetInfo(kp, input).value.title) ==> r == Err(NotFound)
    ensures GetInfo(kp, input).Err? ==> r == Err(GetInfo(kp, input).error)
    ensures r.Ok? <==>
      && GetInfo(kp, input).Ok?
      && Truthy(GetInfo(kp, input).value.title)
      && RuntimeOf(GetInfo(kp, input).value.length).Ok?
    ensures GetInfo(kp, input).Ok? && Truthy(GetInfo(kp, input).value.title)
            && RuntimeOf(GetInfo(kp, input).value.length).Err? ==>
      r == Err(RuntimeOf(GetInfo(kp, input).value.length).error)
  {
    var info :- GetInfo(kp, input);
    if !Truthy(info.title) then
      Err(NotFound)
    else
      var card :- CardOf(info);
      Ok((info, card))
  }

  /** Position of the first reference with the given title, if any. */
  function FirstWithTitle(refs: seq<Reference>, title: Json): (r: Option<nat>)
    ensures r.Some? ==> r.value < |refs| && refs[r.value].title == title
    ensures r.Some? ==> forall j :: 0 <= j < r.value ==> refs[j].title != title
    ensures r.None? ==> forall j :: 0 <= j < |refs| ==> refs[j].title != title
  {
    if |refs| == 0 then None
    else if refs[0].title == title then Some(0)
    else match FirstWithTitle(refs[1..], title)
      case None => None
      case Some(i) => Some(i + 1)
  }

  /** `[title for title, _ in references]`. */
  function Titles(refs: seq<Reference>): (ts: seq<Json>)
    ensures |ts| == |refs|
    ensures forall i :: 0 <= i < |refs| ==> ts[i] == refs[i].title
  {
    seq(|refs|, i requires 0 <= i < |refs| => refs[i].title)
  }

  /** The link for the matcher's choice: the URL of the first reference with that title. */
  function BestLink(refs: seq<Reference>, choice: Option<Json>): (r: Outcome<Option<Link>>)
    ensures choice.None? ==> r == Ok(None)
    ensures choice.Some? && choice.value in Titles(refs) ==> r.Ok? && r.value.Some?
    ensures choice.Some? && choice.value !in Titles(refs) ==> r == Err(NoSuchReference)
    ensures r.Ok? && r.value.Some? ==>
      && choice == Some(r.value.value.title)
      && exists i :: 0 <= i < |refs| && refs[i] == Reference(r.value.value.title, r.value.value.url)
                     && forall j :: 0 <= j < i ==> refs[j].title != r.value.value.title
  {
    match choice
    case None => Ok(None)
    case Some(best) =>
      match FirstWithTitle(refs, best)
      case None => Err(NoSuchReference)
      case Some(i) =>
        assert refs[i] == Reference(best, refs[i].player);
        Ok(Some(Link(best, refs[i].player)))
  }

  /** The photo is sent when the poster URL is truthy. */
  function Photo(imageUrl: Json): (r: Option<Json>)
    ensures r.Some? <==> Truthy(imageUrl)
    ensures r.Some? ==> r.value == imageUrl
  {
    if Truthy(imageUrl) then Some(imageUrl) else None
  }

  /** `save_search` followed by `increment_movie_stat` for the same user and title. */
  function Record(s: Store, user: string, query: string, title: string, now: int): (s': Store)
    ensures |s'.history| == |s.history| + 1 && s'.history[..|s.history|] == s.history
    ensures s'.history[|s.history|] == Entry(user, query, title, now)
    ensures CountOf(s'.stats, title, user) == CountOf(s.stats, title, user) + 1
    ensures forall t, u :: (t, u) != (title, user) ==> CountOf(s'.stats, t, u) == CountOf(s.stats, t, u)
    ensures Valid(s) ==> Valid(s')
  {
    IncrementMovieStat(SaveSearch(s, user, query, title, now), user, title)
  }

  /** The request `get_references` sends for a canonical title. */
  function VideoRequest(title: string): VkRequest {
    VkRequest(NewSearcher(BaseRequest).baseRequest + " " + title, ReferenceCount,
              DefaultVersion, DefaultFilters, DefaultSort)
  }

  /**
   The reply once the store has been written: a failed video search or a chosen title with
   no matching video reports the error; otherwise the card, with the link and the poster.
   */
  function Conclude(card: Card, info: MovieInfo, refs: Outcome<seq<Reference>>,
                    extractOne: (string, seq<Json>) -> Option<Json>, title: string): (r: Reply)
    ensures refs.Err? ==> r == Failed(refs.error)
    ensures refs.Ok? ==> var best := BestLink(refs.value, extractOne(title, Titles(refs.value)));
      && (best.Err? ==> r == Failed(best.error))
      && (best.Ok? ==> r == Found(card, best.value, Photo(info.imageUrl)))
    ensures r.Found? ==> r.card == card && (r.photo.Some? <==> Truthy(info.imageUrl))
  {
    match refs
    case Err(e) => Failed(e)
    case Ok(rs) =>
      match BestLink(rs, extractOne(title, Titles(rs)))
      case Err(e) => Failed(e)
      case Ok(link) => Found(card, link, Photo(info.imageUrl))
  }

  /**
   `h` records the search of `input` resolved to `title` and then looks for videos: the store
   is `Record`'s, and the effects are the saved search, the increment, the video request for
   `title`, and a reply.
   */
  predicate RecordedThenLooked(h: Handled, store: Store, user: string, input: string, title: string, now: int) {
    && h.store == Record(store, user, input, title, now)
    && |h.effects| == 4
    && h.effects[0] == Saved(user, input, title)
    && h.effects[1] == Counted(user, title)
    && h.effects[2] == AskVideos(VideoRequest(title))
    && h.effects[3].Say?
  }

  /**
   The reply after the two writes: the video search for the canonical title, then the card
   and the best link. The canonical title is never blank, so `get_references` always sends
   its request (`VideoRequestSent`).
   */
  function LookUp(env: Env, info: MovieInfo, card: Card, title: string): Reply {
    Conclude(card, info, GetReferences(NewSearcher(BaseRequest), env.vk, title), env.extractOne, title)
  }

  /**
   The handler after a successful resolve: `save_search`, `increment_movie_stat`, then the
   video search for the same canonical title, then the reply.
   */
  function Proceed(store: Store, env: Env, user: string, input: string, info: MovieInfo, card: Card): (h: Handled)
    ensures RecordedThenLooked(h, store, user, input, CanonicalTitle(env.show, info.title, info.year), env.now)
  {
    var title := CanonicalTitle(env.show, info.title, info.year);
    Written(store, user, input, title, env.now, LookUp(env, info, card, title))
  }

  /** The two writes for `title`, the video search for it, then `reply`. */
  function Written(store: Store, user: string, input: string, title: string, now: int, reply: Reply): (h: Handled)
    ensures RecordedThenLooked(h, store, user, input, title, now)
    ensures h.effects[3] == Say(reply)
  {
    var effects := [Saved(user, input, title), Counted(user, title), AskVideos(VideoRequest(title)), Say(reply)];
    assert |effects| == 4 && effects[0].Saved? && effects[1].Counted? && effects[2].AskVideos?;
    Handled(Record(store, user, input, title, now), effects)
  }

  /** A string title appears in the canonical title as itself. */
  lemma CanonicalTitleOfString(show: Json -> string, t: string, year: Json)
    requires ShowsStringsAsThemselves(show)
    ensures CanonicalTitle(show, JStr(t), year) == t + " (" + show(year) + ")"
  {
  }

  /** The validation in `fetch_vk_reference` accepts every canonical title, so the video request goes out. */
  lemma VideoRequestSent(show: Json -> string, title: Json, year: Json)
    ensures var c := CanonicalTitle(show, title, year);
      VkRequestFor(NewSearcher(BaseRequest), c, ReferenceCount, DefaultSort, DefaultFilters, DefaultVersion)
        == Ok(VideoRequest(c))
  {
  }

  /**
   The handler once the stripped input is known not to be empty: say that the search has
   started, ask the movie database, then either report the failure or go on.
   */
  function After(store: Store, env: Env, user: string, input: string,
                 resolved: Outcome<(MovieInfo, Card)>): (h: Handled)
    ensures |h.effects| >= 3
    ensures h.effects[0] == Say(Searching(input)) && h.effects[1] == AskMovies(KpRequestFor(input))
    ensures resolved.Err? ==> h == Handled(store, [Say(Searching(input)), AskMovies(KpRequestFor(input)),
                                                  Say(Failed(resolved.error))])
  {
    var asked := [Say(Searching(input)), AskMovies(KpRequestFor(input))];
    match resolved
    case Err(e) => Handled(store, asked + [Say(Failed(e))])
    case Ok(found) =>
      var rest := Proceed(store, env, user, input, found.0, found.1);
      Handled(rest.store, asked + rest.effects)
  }

  /** `movie_search_handler` for one text message from `user`. */
  function Handle(store: Store, env: Env, user: string, text: string): (h: Handled)
    ensures IsBlank(text) ==> h == Handled(store, [Say(AskForTitle)])
    ensures !IsBlank(text) ==> h == After(store, env, user, Strip(text), Resolve(env.kp, Strip(text)))
  {
    var input := Strip(text);
    if input == [] then
      Handled(store, [Say(AskForTitle)])
    else
      After(store, env, user, input, Resolve(env.kp, input))
  }
}

=== FILE: searcher.dfy ===
/**
 `MovieSearcher` (`movie_searcher.py`): building requests for the two providers and shaping
 their answers. A provider is a function from the request it receives to the response it
 gives; the HTTP session, the tokens and the URLs are not modelled.
 */
module Searcher {
  import opened Results
  import opened Text
  import opened Json

  /** An HTTP answer: a status and a body that decodes as JSON (`None` when it does not), or no answer at all. */
  datatype Response = Response(status: int, body: Option<Json>) | NoResponse

  /** The query parameters sent to the movie database (the token is left out). */
  datatype KpRequest = KpRequest(page: int, limit: int, query: string)

  /** The query parameters sent to the video search (the token is left out). */
  datatype VkRequest = VkRequest(q: string, count: int, version: string, filters: string, sort: int)

  /** A searcher holds the topical prefix put before every video search. */
  datatype MovieSearcher = MovieSearcher(baseRequest: string)

  /** Defaults of `fetch_vk_reference`, and the count `get_references` asks for. */
  const DefaultSort: int := 0
  const DefaultFilters: string := "long,vk"
  const DefaultVersion: string := "5.199"
  const ReferenceCount: int := 50

  /** The prefix of the text of the `{"Error": ...}` value returned for a failed status. */
  const FailurePrefix: string := "API запрос упал со статусом"

  /** `MovieSearcher.__init__`: the prefix is stripped and followed by one space. */
  function NewSearcher(base: string): (m: MovieSearcher)
    ensures |m.baseRequest| >= 1 && m.baseRequest[|m.baseRequest| - 1] == ' '
    ensures m.baseRequest[..|m.baseRequest| - 1] == Strip(base)
  {
    MovieSearcher(Strip(base) + " ")
  }

  /** The `{"Error": ...}` dictionary returned instead of raising when the status is not 200. */
  function ErrorBody(spacing: string, status: int): Json {
    Singleton("Error", FailurePrefix + spacing + IntToString(status))
  }

  /**
   The validation and parameters of `fetch_vk_reference`: a blank request raises before any
   request is built; otherwise the search text is the prefix, a space and the request as given.
   */
  function VkRequestFor(m: MovieSearcher, request: string, count: int, sort: int,
                        filters: string, version: string): (r: Outcome<VkRequest>)
    ensures r.Err? <==> IsBlank(request)
    ensures r.Err? ==> r.error == EmptyRequest
    ensures r.Ok? ==> r.value.q == m.baseRequest + " " + request
    ensures r.Ok? ==> r.value == r.value.(count := count, sort := sort, filters := filters, version := version)
  {
    if Strip(request) == [] then
      Err(EmptyRequest)
    else
      Ok(VkRequest(m.baseRequest + " " + request, count, version, filters, sort))
  }

  /** What a fetcher returns for one answer; `spacing` is the gap before the status in the error text. */
  function Answer(resp: Response, spacing: string): (r: Outcome<Json>)
    ensures resp.NoResponse? ==> r == Err(TransportError)
    ensures resp.Response? && resp.status != 200 ==> r == Ok(ErrorBody(spacing, resp.status))
    ensures resp.Response? && resp.status == 200 ==>
      r == (if resp.body.Some? then Ok(resp.body.value) else Err(DecodeError))
  {
    match resp
    case NoResponse => Err(TransportError)
    case Response(status, body) =>
      if status == 200 then
        match body
        case Some(j) => Ok(j)
        case None => Err(DecodeError)
      else
        Ok(ErrorBody(spacing, status))
  }

  /** `fetch_vk_reference`. */
  function FetchVkReference(m: MovieSearcher, vk: VkRequest -> Response, request: string, count: int,
                            sort: int, filters: string, version: string): (r: Outcome<Json>)
    ensures IsBlank(request) ==> r == Err(EmptyRequest)
    ensures !IsBlank(request) ==>
      r == Answer(vk(VkRequest(m.baseRequest + " " + request, count, version, filters, sort)), "  ")
  {
    var req :- VkRequestFor(m, request, count, sort, filters, version);
    Answer(vk(req), "  ")
  }

  /** The parameters `get_kp_info_json` sends: the first page, one document, the query as given. */
  function KpRequestFor(query: string): (r: KpRequest)
    ensures r.page == 1 && r.limit == 1 && r.query == query
  {
    KpRequest(1, 1, query)
  }

  /**
   `get_kp_info_json`: a failed status gives the `{"Error": ...}` value; a 200 answer whose
   `docs` is empty (or otherwise falsy) raises not-found; otherwise `docs[0]`.
   */
  function GetKpInfoJson(kp: KpRequest -> Response, query: string): (r: Outcome<Json>)
    ensures var resp := kp(KpRequestFor(query));
      && (resp.NoResponse? ==> r == Err(TransportError))
      && (resp.Response? && resp.status != 200 ==> r == Ok(ErrorBody(" ", resp.status)))
      && (resp.Response? && resp.status == 200 && resp.body.Some? ==>
            var docs := Get(resp.body.value, "docs");
            && (docs.Ok? && !Truthy(docs.value) ==> r == Err(NotFound))
            && (docs.Ok? && docs.value.JArr? && |docs.value.items| > 0 ==> r == Ok(docs.value.items[0]))
            && (docs.Ok? && Truthy(docs.value) ==> r == First(docs.value))
            && (docs.Err? ==> r == Err(docs.error)))
      && (resp.Response? && resp.status == 200 && resp.body.None? ==> r == Err(DecodeError))
  {
    var resp := kp(KpRequestFor(query));
    var body :- Answer(resp, " ");
    if resp.Response? && resp.status == 200 then
      var docs :- Get(body, "docs");
      if !Truthy(docs) then Err(NotFound) else First(docs)
    else
      Ok(body)
  }

  /**
   The description clean-up of `get_info`, written as `get_info` writes it
   (`' '.join(d.split('\xa0'))`): every no-break space becomes a plain space and nothing else moves.
   */
  function Normalise(d: string): (r: string)
    ensures |r| == |d|
    ensures forall i :: 0 <= i < |d| ==> r[i] == (if d[i] == Nbsp then ' ' else d[i])
    ensures Nbsp !in r
  {
    JoinSplitIsReplace(d, Nbsp, ' ');
    Join(" ", Split(d, Nbsp))
  }

  /** Cleaning a description a second time changes nothing. */
  lemma NormaliseIdempotent(d: string)
    ensures Normalise(Normalise(d)) == Normalise(d)
  {
  }

  /** The record `get_info` builds. Values are copied from the document as they are. */
  datatype MovieInfo = MovieInfo(title: Json, year: Json, length: Json, description: string,
                                 kp: Json, imdb: Json, imageUrl: Json)

  /** A document carries every key `get_info` reads, with a string description. */
  predicate Complete(doc: Json) {
    && doc.JObj?
    && (forall k :: k in ["name", "year", "movieLength", "description", "rating", "poster"] ==> k in doc.fields)
    && doc.fields["description"].JStr?
    && doc.fields["rating"].JObj? && "kp" in doc.fields["rating"].fields && "imdb" in doc.fields["rating"].fields
    && doc.fields["poster"].JObj? && "url" in doc.fields["poster"].fields
  }

  /**
   The dictionary `get_info` builds from one document, reading the keys in the order
   `get_info` reads them; the first missing key or wrongly shaped value raises.
   */
  function InfoFromDoc(doc: Json): (r: Outcome<MovieInfo>)
    ensures r.Ok? <==> Complete(doc)
    ensures r.Ok? ==> && r.value.title == doc.fields["name"]
                      && r.value.year == doc.fields["year"]
                      && r.value.length == doc.fields["movieLength"]
                      && r.value.description == Normalise(doc.fields["description"].s)
                      && r.value.kp == doc.fields["rating"].fields["kp"]
                      && r.value.imdb == doc.fields["rating"].fields["imdb"]
                      && r.value.imageUrl == doc.fields["poster"].fields["url"]
    ensures !doc.JObj? ==> r == Err(TypeError)
    ensures doc.JObj? && "name" !in doc.fields ==> r == Err(KeyError(JStr("name")))
  {
    var title :- Get(doc, "name");
    var year :- Get(doc, "year");
    var length :- Get(doc, "movieLength");
    var d :- Get(doc, "description");
    if !d.JStr? then Err(AttributeError) else
    var description := Normalise(d.s);
    var rating :- Get(doc, "rating");
    var kp :- Get(rating, "kp");
    var imdb :- Get(rating, "imdb");
    var poster :- Get(doc, "poster");
    var url :- Get(poster, "url");
    Ok(MovieInfo(title, year, length, description, kp, imdb, url))
  }

  /** `get_info`: the first document of the movie database's answer, as a `MovieInfo`. */
  function GetInfo(kp: KpRequest -> Response, query: string): (r: Outcome<MovieInfo>)
    ensures r.Ok? <==> GetKpInfoJson(kp, query).Ok? && Complete(GetKpInfoJson(kp, query).value)
    ensures GetKpInfoJson(kp, query).Err? ==> r == Err(GetKpInfoJson(kp, query).error)
    ensures GetKpInfoJson(kp, query).Ok? ==> r == InfoFromDoc(GetKpInfoJson(kp, query).value)
    ensures r.Ok? ==> var doc := GetKpInfoJson(kp, query).value;
      && r.value.title == doc.fields["name"]
      && r.value.year == doc.fields["year"]
      && r.value.length == doc.fields["movieLength"]
      && r.value.description == Normalise(doc.fields["description"].s)
      && r.value.kp == doc.fields["rating"].fields["kp"]
      && r.value.imdb == doc.fields["rating"].fields["imdb"]
      && r.value.imageUrl == doc.fields["poster"].fields["url"]
  {
    var doc :- GetKpInfoJson(kp, query);
    InfoFromDoc(doc)
  }

  /** A failed status is not an exception in the fetcher, but `get_info` then lacks `name`. */
  lemma GetInfoFailedStatus(kp: KpRequest -> Response, query: string)
    requires kp(KpRequestFor(query)).Response? && kp(KpRequestFor(query)).status != 200
    ensures GetInfo(kp, query) == Err(KeyError(JStr("name")))
  {
  }

  /** One candidate reference: the video's title and its player URL. */
  datatype Reference = Reference(title: Json, player: Json)

  /** An item carries both keys `get_references` reads. */
  predicate IsItem(item: Json) {
    item.JObj? && "title" in item.fields && "player" in item.fields
  }

  /** `(item['title'], item['player'])` for each item in turn; the first bad item raises. */
  function ReferencesOf(items: seq<Json>): (r: Outcome<seq<Reference>>)
    ensures r.Ok? <==> forall i :: 0 <= i < |items| ==> IsItem(items[i])
    ensures r.Ok? ==> |r.value| == |items|
    ensures r.Ok? ==> forall i :: 0 <= i < |items| ==>
      r.value[i] == Reference(items[i].fields["title"], items[i].fields["player"])
  {
    if |items| == 0 then
      Ok([])
    else
      var title :- Get(items[0], "title");
      var player :- Get(items[0], "player");
      var rest :- ReferencesOf(items[1..]);
      assert forall i :: 1 <= i < |items| ==> items[1..][i - 1] == items[i];
      Ok([Reference(title, player)] + rest)
  }

  /** Iterating `items` in the list comprehension: anything but a list either is empty or raises. */
  function IterateItems(items: Json): (r: Outcome<seq<Reference>>)
    ensures items.JArr? ==> r == ReferencesOf(items.items)
    ensures !items.JArr? && r.Ok? ==> r.value == []
    ensures !items.JArr? ==> (r.Ok? <==> (items.JObj? || items.JStr?) && !Truthy(items))
    ensures !items.JArr? && r.Err? ==> r.error == TypeError
  {
    match items
    case JArr(a) => ReferencesOf(a)
    case JObj(m) => if |m| == 0 then Ok([]) else Err(TypeError)
    case JStr(s) => if |s| == 0 then Ok([]) else Err(TypeError)
    case _ => Err(TypeError)
  }

  /**
   The shaping step of `get_references`: the `(title, player)` pairs of `response.items` in
   the provider's order, or no pairs at all when either key is missing.
   */
  function ReferencesFromBody(body: Json): (r: Outcome<seq<Reference>>)
    ensures body.JObj? && "response" !in body.fields ==> r == Ok([])
    ensures body.JObj? && "response" in body.fields && body.fields["response"].JObj? ==>
      var inner := body.fields["response"].fields;
      && ("items" !in inner ==> r == Ok([]))
      && ("items" in inner ==> r == IterateItems(inner["items"]))
  {
    var hasResponse :- Has(body, "response");
    if !hasResponse then
      Ok([])
    else
      var inner :- Get(body, "response");
      var hasItems :- Has(inner, "items");
      if !hasItems then
        Ok([])
      else
        var items :- Get(inner, "items");
        IterateItems(items)
  }

  /** `get_references`: a video search for `query` asking for 50 results, shaped into pairs. */
  function GetReferences(m: MovieSearcher, vk: VkRequest -> Response, query: string): (r: Outcome<seq<Reference>>)
    ensures IsBlank(query) ==> r == Err(EmptyRequest)
    ensures !IsBlank(query) ==>
      var resp := vk(VkRequest(m.baseRequest + " " + query, ReferenceCount, DefaultVersion, DefaultFilters, DefaultSort));
      && (resp.NoResponse? ==> r == Err(TransportError))
      && (resp.Response? && resp.status != 200 ==> r == Ok([]))
      && (resp.Response? && resp.status == 200 && resp.body.Some? ==> r == ReferencesFromBody(resp.body.value))
  {
    var body :- FetchVkReference(m, vk, query, ReferenceCount, DefaultSort, DefaultFilters, DefaultVersion);
    ReferencesFromBody(body)
  }
}

/** Properties of the searcher that combine several of its functions. */
module SearcherLaws {
  import opened Results
  import opened Text
  import opened Json
  import opened Searcher

  /** The video search text is the stripped prefix, two spaces, then the request unchanged. */
  lemma SearchText(base: string, request: string, count: int, sort: int, filters: string, version: string)
    requires !IsBlank(request)
    ensures VkRequestFor(NewSearcher(base), request, count, sort, filters, version).Ok?
    ensures VkRequestFor(NewSearcher(base), request, count, sort, filters, version).value.q
      == Strip(base) + "  " + request
  {
    var m := NewSearcher(base);
    assert m.baseRequest == Strip(base) + " ";
    assert m.baseRequest + " " + request == Strip(base) + "  " + request;
  }

  /**
   `get_references` sends one video search, for 50 videos with the default version, filters
   and sort: two providers that answer that request alike give the same references.
   */
  lemma ReferencesAskForFifty(m: MovieSearcher, vk: VkRequest -> Response, vk': VkRequest -> Response, query: string)
    requires !IsBlank(query)
    requires vk(VkRequest(m.baseRequest + " " + query, 50, "5.199", "long,vk", 0))
          == vk'(VkRequest(m.baseRequest + " " + query, 50, "5.199", "long,vk", 0))
    ensures GetReferences(m, vk, query) == GetReferences(m, vk', query)
  {
  }

  /** With a well-formed answer the pairs follow the items one for one, in the provider's order. */
  lemma ReferencesFollowItems(items: seq<Json>, i: nat)
    requires forall k :: 0 <= k < |items| ==> IsItem(items[k])
    requires i < |items|
    ensures var body := JObj(map["response" := JObj(map["items" := JArr(items)])]);
      && ReferencesFromBody(body).Ok?
      && |ReferencesFromBody(body).value| == |items|
      && ReferencesFromBody(body).value[i].title == items[i].fields["title"]
      && ReferencesFromBody(body).value[i].player == items[i].fields["player"]
  {
  }

  /** A failed status is not an exception for the video search: it yields no references. */
  lemma ReferencesOfFailedStatus(m: MovieSearcher, vk: VkRequest -> Response, query: string)
    requires !IsBlank(query)
    requires vk(VkRequest(m.baseRequest + " " + query, ReferenceCount, DefaultVersion, DefaultFilters, DefaultSort)).Response?
    requires vk(VkRequest(m.baseRequest + " " + query, ReferenceCount, DefaultVersion, DefaultFilters, DefaultSort)).status != 200
    ensures GetReferences(m, vk, query) == Ok([])
  {
  }
}

=== FILE: text.dfy ===
/**
 The string primitives of Python that the bot relies on, over `string` (a sequence of
 Unicode scalar values): `str.isspace`, `str.strip`, `str.split` on one character,
 `str.join`, `in` on strings, and `str()` of an integer.
 */
module Text {

  /** The no-break space U+00A0 that the movie provider puts into descriptions. */
  const Nbsp: char := '\U{A0}'

  /** The characters for which Python's `str.isspace()` is true; `str.strip()` removes them. */
  predicate IsSpace(c: char) {
    || ('\U{9}' <= c <= '\U{D}')
    || ('\U{1C}' <= c <= '\U{20}')
    || c == '\U{85}'
    || c == '\U{A0}'
    || c == '\U{1680}'
    || ('\U{2000}' <= c <= '\U{200A}')
    || c == '\U{2028}'
    || c == '\U{2029}'
    || c == '\U{202F}'
    || c == '\U{205F}'
    || c == '\U{3000}'
  }

  /** True iff every character of `s` is whitespace (this includes the empty string). */
  predicate IsBlank(s: string) {
    forall i :: 0 <= i < |s| ==> IsSpace(s[i])
  }

  /** Number of leading whitespace characters of `s`. */
  function LeadingSpaces(s: string): (n: nat)
    ensures n <= |s|
    ensures forall k :: 0 <= k < n ==> IsSpace(s[k])
    ensures n < |s| ==> !IsSpace(s[n])
  {
    if |s| > 0 && IsSpace(s[0]) then 1 + LeadingSpaces(s[1..]) else 0
  }

  /** Number of trailing whitespace characters of `s`. */
  function TrailingSpaces(s: string): (n: nat)
    ensures n <= |s|
    ensures forall k :: |s| - n <= k < |s| ==> IsSpace(s[k])
    ensures n < |s| ==> !IsSpace(s[|s| - n - 1])
  {
    if |s| > 0 && IsSpace(s[|s| - 1]) then 1 + TrailingSpaces(s[..|s| - 1]) else 0
  }

  /**
   Python's `s.strip()`: the slice of `s` left after removing whitespace at both ends.
   The result is empty exactly when `s` is blank; otherwise it starts and ends with a
   non-space character, and everything cut away on either side is whitespace.
   */
  function Strip(s: string): (r: string)
    ensures |r| <= |s|
    ensures r == [] <==> IsBlank(s)
    ensures r != [] ==> !IsSpace(r[0]) && !IsSpace(r[|r| - 1])
    ensures LeadingSpaces(s) + |r| <= |s|
    ensures r == s[LeadingSpaces(s)..LeadingSpaces(s) + |r|]
    ensures forall k :: LeadingSpaces(s) + |r| <= k < |s| ==> IsSpace(s[k])
  {
    var lead := LeadingSpaces(s);
    if lead == |s| then
      []
    else
      var trail := TrailingSpaces(s);
      assert !IsSpace(s[lead]);
      s[lead..|s| - trail]
  }

  /** Stripping twice is the same as stripping once. */
  lemma StripIdempotent(s: string)
    ensures Strip(Strip(s)) == Strip(s)
  {
    var r := Strip(s);
    if r != [] {
      assert LeadingSpaces(r) == 0;
      assert TrailingSpaces(r) == 0;
    }
  }

  /** A string containing one non-space character never strips to the empty string. */
  lemma StripKeepsNonSpace(s: string, i: nat)
    requires i < |s| && !IsSpace(s[i])
    ensures Strip(s) != []
  {
    assert !IsBlank(s);
  }

  /** Python's `s.split(c)` for a one-character separator: the maximal runs between separators. */
  function Split(s: string, c: char): (parts: seq<string>)
    ensures |parts| >= 1
    ensures forall i :: 0 <= i < |parts| ==> c !in parts[i]
  {
    if |s| == 0 then
      [""]
    else
      var rest := Split(s[1..], c);
      if s[0] == c then
        [""] + rest
      else
        assert forall i :: 1 <= i < |rest| ==> rest[1..][i - 1] == rest[i];
        [[s[0]] + rest[0]] + rest[1..]
  }

  /** Python's `sep.join(parts)`. */
  function Join(sep: string, parts: seq<string>): string {
    if |parts| == 0 then ""
    else if |parts| == 1 then parts[0]
    else parts[0] + sep + Join(sep, parts[1..])
  }

  /** `s` with every occurrence of `c` replaced by `d` and every other character kept. */
  function Replace(s: string, c: char, d: char): (r: string)
    ensures |r| == |s|
  {
    seq(|s|, i requires 0 <= i < |s| => if s[i] == c then d else s[i])
  }

  /** Prepending a character to the first part prepends it to the joined string. */
  lemma JoinConsFirst(sep: string, x: char, parts: seq<string>)
    requires |parts| >= 1
    ensures Join(sep, [[x] + parts[0]] + parts[1..]) == [x] + Join(sep, parts)
  {
    var ps := [[x] + parts[0]] + parts[1..];
    if |parts| > 1 {
      assert ps[1..] == parts[1..];
    }
  }

  /**
   Splitting on `c` and joining with `d` replaces each `c` by `d`: this is what
   `' '.join(s.split('\xa0'))` computes.
   */
  lemma {:induction false} JoinSplitIsReplace(s: string, c: char, d: char)
    ensures Join([d], Split(s, c)) == Replace(s, c, d)
  {
    if |s| > 0 {
      var rest := Split(s[1..], c);
      JoinSplitIsReplace(s[1..], c, d);
      assert Replace(s, c, d) == [if s[0] == c then d else s[0]] + Replace(s[1..], c, d);
      if s[0] == c {
        var ps := [""] + rest;
        assert ps[1..] == rest;
      } else {
        JoinConsFirst([d], s[0], rest);
      }
    }
  }

  /** Joining the pieces of a split with the same separator gives back the original string. */
  lemma SplitJoinRoundTrip(s: string, c: char)
    ensures Join([c], Split(s, c)) == s
  {
    JoinSplitIsReplace(s, c, c);
    assert Replace(s, c, c) == s;
  }

  /** `s` contains `k` as a contiguous substring (Python's `k in s` for strings). */
  predicate Contains(s: string, k: string)
    decreases |s|
  {
    (|k| <= |s| && s[..|k|] == k) || (|s| > 0 && Contains(s[1..], k))
  }

  /** `k` occurs in `s` starting at position `i`. */
  predicate OccursAt(s: string, k: string, i: int) {
    0 <= i && i + |k| <= |s| && s[i..i + |k|] == k
  }

  /** `Contains` holds exactly when `k` occurs at some position of `s`. */
  lemma {:induction false} ContainsAt(s: string, k: string)
    ensures Contains(s, k) <==> exists i :: OccursAt(s, k, i)
    decreases |s|
  {
    if |s| > 0 {
      ContainsAt(s[1..], k);
      if |k| <= |s| && s[..|k|] == k {
        assert OccursAt(s, k, 0);
      }
      if exists i :: OccursAt(s, k, i) {
        var i :| OccursAt(s, k, i);
        if i > 0 {
          assert s[1..][i - 1..i - 1 + |k|] == k by {
            forall j | 0 <= j < |k|
              ensures s[1..][i - 1..i - 1 + |k|][j] == k[j]
            {
              assert s[i..i + |k|][j] == k[j];
            }
          }
          assert OccursAt(s[1..], k, i - 1);
        }
      }
      if Contains(s[1..], k) {
        var i :| OccursAt(s[1..], k, i);
        assert i + 1 + |k| <= |s|;
        assert s[i + 1..i + 1 + |k|] == k by {
          forall j | 0 <= j < |k|
            ensures s[i + 1..i + 1 + |k|][j] == k[j]
          {
            assert s[1..][i..i + |k|][j] == k[j];
          }
        }
        assert OccursAt(s, k, i + 1);
      }
    } else {
      if |k| == 0 {
        assert OccursAt(s, k, 0);
      }
      if exists i :: OccursAt(s, k, i) {
        var i :| OccursAt(s, k, i);
        assert |k| == 0 && i == 0;
        assert s[..|k|] == k;
      }
    }
  }

  /** The number a string of decimal digits denotes, read most significant digit first. */
  function DigitsValue(s: string): nat
    requires forall i :: 0 <= i < |s| ==> '0' <= s[i] <= '9'
  {
    if |s| == 0 then 0 else DigitsValue(s[..|s| - 1]) * 10 + (s[|s| - 1] - '0') as nat
  }

  /** The decimal digits of a natural number, as Python's `str()` writes them: no leading zero. */
  function NatToString(n: nat): (r: string)
    ensures |r| >= 1
    ensures forall i :: 0 <= i < |r| ==> '0' <= r[i] <= '9'
    ensures DigitsValue(r) == n
    ensures |r| > 1 ==> r[0] != '0'
  {
    var digit := ['0' + (n % 10) as char];
    if n < 10 then digit
    else
      var r := NatToString(n / 10) + digit;
      assert r[..|r| - 1] == NatToString(n / 10);
      r
  }

  /** Python's `str(n)` for an integer. */
  function IntToString(n: int): string {
    if n < 0 then "-" + NatToString(-n) else NatToString(n)
  }
}
